=== FILE: README.md ===
# Expense tracker: the data layer, modelled in Dafny

The application is a single-page expense tracker. It keeps a flat list of expense
records (`id`, amount, category, description, `YYYY-MM-DD` date, creation time)
and derives from it everything the screen shows:
- the records of the selected month, narrowed by the filter panel and sorted newest first;
- the budget card;
- the category and daily charts;
- the yearly analysis, with its twelve monthly buckets, its highest and lowest month and each month's share;
- the CSV exports.

This project models that data layer as immutable datatypes and pure functions,
and proves what each step promises:
- subsequence and permutation results;
- partitions and the conservation of totals and counts;
- exactly twelve buckets;
- the tie-breaking of the folds and of the stable sort;
- the thresholds of the budget status;
- the column structure of the CSV lines;
- the "nothing else changes" shape of every handler.

Modules, one per source file or concern:

| module | file | models |
|---|---|---|
| `Seqs` | seqs.dfy | generic filter, sum, partition, de-duplication and permutation lemmas |
| `Text` | text.dfy | `trim`, ASCII `toLowerCase`, `includes`, `String(n)`, `padStart(2, '0')`, `join`, `split` |
| `Model` | model.dfy | the record, date, criteria, bucket and catalog datatypes, and the default budget and catalog |
| `Query` | query.dfy | totals, year/month selection, `filterExpenses`, `getMonthlyTotals`, `getAvailableYears`, `getMonthName` |
| `Sorting` | sorting.dfy | `sortExpenses` as a stable insertion sort over the source's comparator |
| `Grouping` | grouping.dfy | `groupByCategory`, `getCategoryTotals`, `groupByMonth` |
| `Budget` | budget.dfy | the budget card |
| `Yearly` | yearly.dfy | the yearly analysis statistics |
| `Charts` | charts.dfy | the chart data |
| `FilterPanel` | filterpanel.dfy | the filter-panel handlers |
| `Csv` | csv.dfy | a quote-aware CSV column reader (section 2 of RFC 4180), used to state what the exported lines mean |
| `Export` | export.dfy | `exportToCSV` content, `generateFilename`, `exportYearlySummary` |
| `Form` | form.dfy | the new-expense form |
| `App` | app.dfy | the application state, its handlers and the derived monthly view |

A date is the triple `(year, month 0..11, day)` that `getFullYear`, `getMonth`
and the day of an ISO date string give. Amounts and budgets are whole currency
units (`int`). Percentages and averages are `real`.

Several values come from outside the pure code and are parameters of the model:
- the clock (today's date, the current year, `createdAt`);
- generated ids;
- the date formatter;
- the `confirm` answer;
- the parsed budget text.

## Model

| member | source | states |
|---|---|---|
| Model.CompareDates | src/utils/helpers.js:72 | the date comparison is zero exactly when the two dates are the same day |
| Query.Total | src/utils/helpers.js:40-42 | the total of no records is 0, one record totals its own amount, and with non-negative amounts the total is never negative; with `Query.TotalAppend` this fixes the total of every list |
| Query.TotalAppend | src/utils/helpers.js:40-42 | `calculateTotal` adds up over concatenation and is never negative when no amount is |
| Query.YearExpenses | src/utils/helpers.js:124-129 | a record is kept iff it is dated in the year. Kept records keep their multiplicity and input order (an order-preserving subsequence) |
| Query.MonthYearExpenses | src/utils/helpers.js:132-137 | a record is kept iff it is dated in that month of that year, with multiplicity and input order preserved |
| Query.MonthWithinYear | src/utils/helpers.js:124-137 | selecting a month is selecting its year, then the month within it |
| Query.SearchActiveIffNotBlank | src/utils/helpers.js:113 | the search criterion is in force exactly when the term holds a non-whitespace character |
| Query.FilterExpenses | src/utils/helpers.js:89-121 | the four guarded filter passes, applied one after another, equal one pass that keeps the records meeting every criterion in force |
| Query.FilterExpensesSpec | src/utils/helpers.js:89-121 | a record survives iff its category is listed (when the list is non-empty), it is on or after the start date, on or before the end date, and its lower-cased description contains the lower-cased term. Survivors keep their multiplicity and order |
| Query.FilterExpensesIdempotent | src/utils/helpers.js:89-121 | filtering twice with the same criteria is filtering once |
| Query.FilterExpensesNoCriteria | src/utils/helpers.js:89-121 | the cleared criteria return the input unchanged |
| Query.BlankSearchIgnored | src/utils/helpers.js:113-117 | a whitespace-only search term filters exactly as the empty term does |
| Query.MonthlyTotals | src/utils/helpers.js:140-155 | there are always twelve buckets; bucket `i` is month `i` under its three-letter name |
| Query.BucketOfYear | src/utils/helpers.js:146-153 | bucket `m` holds the sum of the amounts and the number of the year's records dated in month `m` |
| Query.MonthlyTotalsConserve | src/utils/helpers.js:140-155 | the bucket totals add up to the year's total, and the bucket counts to the number of records in the year |
| Query.BucketWithinYear | src/utils/helpers.js:140-155 | with non-negative amounts a month's total lies between 0 and the year's total |
| Query.SortDescending | src/utils/helpers.js:176 | sorting distinct numbers gives a strictly descending list of the same numbers |
| Query.AvailableYears | src/utils/helpers.js:172-177 | the years form a strictly descending list, so it has no duplicates. A year is listed iff some record is dated in it |
| Query.MonthName | src/utils/helpers.js:180-186 | the full month name starts with the abbreviation the monthly buckets use |
| Text.Trim | src/utils/helpers.js:113 | the trimmed text is a piece of the input with no whitespace at either end; it is empty iff the input is all whitespace. Whitespace is what JavaScript's `trim` removes: tab, vertical tab, form feed, space, no-break space, the byte-order mark, every Unicode space separator (U+1680, U+2000 to U+200A, U+202F, U+205F, U+3000) and the four line terminators |
| Text.Lower | src/utils/helpers.js:114-116 | lower-casing keeps the length and lowers each character |
| Text.Contains | src/utils/helpers.js:116 | `includes` holds iff the needle occurs at some position |
| Text.IntToString | src/utils/helpers.js:161 | a number's text is its digits, with a leading minus exactly for negatives, and reads back as the number |
| Text.PadTwoDigits | src/utils/helpers.js:161 | a number below 100, padded to two characters, is two digits that read back as the number |
| Text.SplitJoin | src/utils/exportUtils.js:27-30 | splitting a join at the separator gives back the parts, when no part holds the separator |
| Sorting.CompareStringsAntisymmetric | src/utils/helpers.js:76 | the string order that stands in for `localeCompare` is antisymmetric |
| Sorting.CompareStringsTransitive | src/utils/helpers.js:76 | that string order is transitive |
| Sorting.CompareStrings | src/utils/helpers.js:76 | the string order gives -1, 0 or 1, and 0 exactly for equal strings |
| Sorting.Comparison | src/utils/helpers.js:68-77 | by date the comparison is 0 exactly for the same day and at most 0 exactly when `a` is not later; by amount it is 0 exactly for equal amounts and negative exactly for a smaller one; by category it is 0 exactly for the same category; any other key compares every pair as equal |
| Sorting.Cmp | src/utils/helpers.js:79 | ascending order uses the comparison as it is, descending order negates it, so the same pairs tie in both orders |
| Sorting.CmpTransitive | src/utils/helpers.js:67-80 | the comparator, for every key and both orders, is transitive |
| Sorting.InsertSorted | src/utils/helpers.js:67-81 | inserting into a sorted list keeps it sorted |
| Sorting.SortExpenses | src/utils/helpers.js:67-81 | the result is a permutation of the input, ordered by the chosen key and direction |
| Sorting.SortStable | src/utils/helpers.js:67-81 | records that tie under the key keep their input order, ascending and descending alike |
| Sorting.SortByOtherKeepsOrder | src/utils/helpers.js:69-79 | an unknown sort key leaves the records in input order |
| Sorting.DescendingIsNotReversedAscending | src/utils/helpers.js:79 | two records on one day come out in input order in both directions, so descending is not reversed ascending |
| Grouping.GroupByCategory | src/utils/helpers.js:45-54 | one group per distinct category in order of first appearance, each holding exactly the records of its category |
| Grouping.GroupBy | src/utils/helpers.js:45-54 | the keys come in order of first appearance, once each. The group for a key holds exactly the records with that key, in input order |
| Grouping.GroupByPartitions | src/utils/helpers.js:45-54 | every record lies in exactly one group, the group of its key, and the group sizes add up to the number of records |
| Grouping.GroupWeightsConserve | src/utils/helpers.js:45-54 | any per-record weight summed group by group equals its sum over all records |
| Grouping.CategoryTotals | src/utils/helpers.js:57-64 | there is one entry per distinct category, in order of first appearance, carrying that category's total and record count |
| Grouping.CategoryTotalsConserve | src/utils/helpers.js:57-64 | the entry totals add up to `calculateTotal` of the input, and the counts to its length |
| Grouping.MonthDigits | src/utils/helpers.js:161 | the month key's month part is two digits that read back as the month counted from 1 |
| Grouping.MonthKey | src/utils/helpers.js:161 | the key is the year's decimal text, a dash, and two digits whose value is the 1-based month |
| Grouping.MonthKeyIdentifiesMonth | src/utils/helpers.js:161 | two records get the same `YYYY-MM` key iff they are in the same month of the same year |
| Grouping.GroupByMonth | src/utils/helpers.js:158-169 | one group per distinct `YYYY-MM` key in order of first appearance, each holding exactly the records with that key |
| Grouping.GroupByMonthIsCalendarMonth | src/utils/helpers.js:158-169 | a month group holds exactly the records of one calendar month, in input order |
| Budget.RemainingOf | src/components/BudgetSummary.jsx:61-62 | the card shows the magnitude of `budget - totalExpenses`, flagged negative exactly when the spending exceeds the budget |
| Budget.PercentageUsed | src/components/BudgetSummary.jsx:6 | the percentage times the budget is one hundred times the spending |
| Budget.PercentageThreshold | src/components/BudgetSummary.jsx:8-12 | the percentage reaches `t` exactly when the spending reaches `t` hundredths of the budget |
| Budget.BudgetStatus | src/components/BudgetSummary.jsx:8-12 | the status is danger iff at least 90 %, warning iff from 70 % up to but not including 90 %, and success otherwise, stated in whole numbers |
| Budget.StatusMonotone | src/components/BudgetSummary.jsx:8-12 | for a fixed budget, spending more never lowers the status |
| Budget.ProgressWidth | src/components/BudgetSummary.jsx:70 | the bar width is the percentage capped at 100: never above 100, and equal to 100 once the budget is spent |
| Budget.PeriodLabel | src/components/BudgetSummary.jsx:15-17 | with both month and year the label is the month's name, a space and the year; otherwise it is "Current Month" |
| Budget.PeriodLabelSplits | src/components/BudgetSummary.jsx:15-17 | a period label splits at its space back into the month's name and the year |
| Yearly.MonthsWithData | src/components/YearlyAnalysis.jsx:17 | exactly the buckets with a positive total, each as often as in the input, in month order |
| Yearly.FoldMaxPicksFirstMax | src/components/YearlyAnalysis.jsx:18-20 | when some month beats the start value, the strict-greater reduce ends on the first month with the largest total |
| Yearly.FoldMinPicksFirstMin | src/components/YearlyAnalysis.jsx:23-25 | when some month undercuts the start value, the strict-less reduce ends on the first month with the smallest total |
| Yearly.HighestMonth | src/components/YearlyAnalysis.jsx:17-20 | the placeholder `{0, '-'}` iff no month has data; otherwise the first month with data whose total is the largest |
| Yearly.LowestMonth | src/components/YearlyAnalysis.jsx:22-26 | the placeholder iff no month has data; otherwise the first month with data whose total is the smallest |
| Yearly.ExtremesBoundEveryMonth | src/components/YearlyAnalysis.jsx:17-26 | every month with data has a total between the lowest month's and the highest month's, and the lowest is positive |
| Yearly.SingleMonthIsBothExtremes | src/components/YearlyAnalysis.jsx:17-26 | with one month of data, that month is both the highest and the lowest |
| Yearly.BarColours | src/components/YearlyAnalysis.jsx:34-38 | one bar colour per month, each decided by that month's total against the highest and the lowest month |
| Yearly.EmptyYearAllHighest | src/components/YearlyAnalysis.jsx:34-43 | in a year without data every bar gets the highest colour, because the placeholder's total is 0 |
| Yearly.ColoursInYearWithData | src/components/YearlyAnalysis.jsx:34-43 | in a year with data a bar is highest-coloured iff it ties the highest month, lowest-coloured iff it ties the lowest but not the highest, and a month without data is plain |
| Yearly.YearTotal | src/components/YearlyAnalysis.jsx:6-13 | with non-negative amounts the year's total lies between 0 and the total of every record |
| Yearly.AvgMonthly | src/components/YearlyAnalysis.jsx:14 | twelve times the average is the year's total, whatever the number of months with data |
| Yearly.AvgIsMeanOfBuckets | src/components/YearlyAnalysis.jsx:12-14 | the average is the mean of the twelve monthly totals |
| Yearly.Share | src/components/YearlyAnalysis.jsx:175 | a month's share times the year total is 100 times the month total; the share is 0 when the year total is not positive |
| Yearly.ShareWithinBounds | src/components/YearlyAnalysis.jsx:175 | a month total between 0 and the year total gives a share between 0 and 100 |
| Yearly.SharesSumToHundred | src/components/YearlyAnalysis.jsx:175 | the twelve shares of a year with a positive total add up to 100 |
| Yearly.MonthShareWithinBounds | src/components/YearlyAnalysis.jsx:175 | with non-negative amounts every month's share lies between 0 and 100 |
| Charts.FindCategory | src/components/Charts.jsx:41 | the lookup finds nothing iff no catalog entry has the id; otherwise it finds the first entry with the id |
| Charts.LabelOf | src/components/Charts.jsx:40-43 | a label is the name of the first catalog entry with the id, or the raw id when no entry has it |
| Charts.ColourOf | src/components/Charts.jsx:46-49 | a colour is that of the first catalog entry with the id, or `#64748b` when no entry has it |
| Charts.DefaultCatalogLabels | src/components/Charts.jsx:40-49 | with the default catalog, `food` is labelled "Food & Dining" and coloured `#ef4444` |
| Charts.UnknownCategoryFallsBack | src/components/Charts.jsx:40-49 | with the default catalog, an unlisted id is labelled with itself and coloured `#64748b` |
| Charts.ChartsOf | src/components/Charts.jsx:19-80 | the empty state appears iff there are no records. The pie's labels, data and colours are aligned with the category totals. The bar shows the first `min(5, k)` of them, in first-appearance order. The line chart shows the daily totals of the given days |
| Charts.DailyTotals | src/components/Charts.jsx:77-80 | one entry per day; entry `i` is the total of the records dated exactly day `i` |
| Charts.PieAddsUpToTotal | src/components/Charts.jsx:36-45 | the pie's slices add up to the total of all records |
| Charts.DailyTotalsAddUp | src/components/Charts.jsx:71-80 | for distinct days, the daily totals add up to the total of the records dated on one of them |
| FilterPanel.ToggleCategory | src/components/FilterPanel.jsx:7-14 | a listed id is removed everywhere and an unlisted one is appended. An id is listed afterwards iff its listing changed, and nothing but the category list changes |
| FilterPanel.ToggleTwiceRestores | src/components/FilterPanel.jsx:8-11 | toggling an unlisted id twice gives the criteria back |
| FilterPanel.ToggleRemovesEveryOccurrence | src/components/FilterPanel.jsx:9-10 | toggling a listed id leaves it unlisted and the rest in order |
| FilterPanel.ChangeDate | src/components/FilterPanel.jsx:16-18 | only the named date bound changes |
| FilterPanel.ChangeSearch | src/components/FilterPanel.jsx:20-22 | only the search term changes |
| FilterPanel.ActiveFilterCount | src/components/FilterPanel.jsx:24-31 | the count lies in 0..4, is 0 exactly for the cleared criteria and 4 exactly when all four criteria are set |
| FilterPanel.CountFollowsSearch | src/components/FilterPanel.jsx:20-31 | typing a search term moves the badge by exactly the change in whether a term is set |
| FilterPanel.CountFollowsDate | src/components/FilterPanel.jsx:16-31 | setting or clearing a date bound moves the badge by exactly the change in whether that bound is set |
| FilterPanel.CountFollowsToggle | src/components/FilterPanel.jsx:7-31 | selecting a category makes the category criterion count; unselecting one keeps it counting exactly when another category stays selected |
| FilterPanel.ShowClearButton | src/components/FilterPanel.jsx:109 | the clear button shows exactly when the criteria differ from the cleared ones |
| FilterPanel.BlankSearchCountsButIsIgnored | src/components/FilterPanel.jsx:24-31 | a whitespace-only search term counts as one active filter and shows the button, yet the filter returns every record |
| Csv.QuotedIsSingleColumn | src/utils/exportUtils.js:22 | a description wrapped in quotes is one column even when it holds commas, provided it holds no quote |
| Csv.ColumnsOfJoin | src/utils/exportUtils.js:29 | joining single-column fields with commas gives a line that reads back as those fields |
| Export.CsvHeaderText | src/utils/exportUtils.js:16 | the header line is `Date,Category,Description,Amount (₹)` |
| Export.CsvHeaderColumns | src/utils/exportUtils.js:16 | the header line reads back as its four column names |
| Export.RowFields | src/utils/exportUtils.js:19-24 | a row's fields are the formatted date, the category, the quoted description and the amount |
| Export.ExportCsv | src/utils/exportUtils.js:9-30 | there is no content iff the list is empty; otherwise the content starts with the header |
| Export.ExportLines | src/utils/exportUtils.js:19-30 | the content splits at line breaks into the header and then one row per record in input order: `n + 1` lines with no trailing newline |
| Export.Row | src/utils/exportUtils.js:19-24 | a row whose fields hold no line break is one line. A row whose date text and category hold no comma or quote, and whose description holds no quote, reads back as its four fields |
| Export.RowWithDisplayDateHasFiveColumns | src/utils/exportUtils.js:19-24 | with the `MMM dd, yyyy` date format, every row reads as five columns under the four-column header |
| Export.QuotedDateRowHasFourColumns | src/utils/exportUtils.js:19-24 | with the date quoted like the description, a row reads back as the four header columns |
| Export.Filename | src/utils/exportUtils.js:57-74 | every export name starts with `expenses_` and ends with `.csv`. A date range gives `expenses_{start}_to_{end}.csv`; otherwise a truthy month and year give `expenses_{year}_{MM}.csv` with the month padded to two digits; a truthy year alone gives `expenses_{year}.csv`; an absent or zero year gives `expenses_{today}.csv` |
| Export.DateRangeFirst | src/utils/exportUtils.js:61-63 | a date range decides the name, whatever the month and year |
| Export.MonthZeroFallsThrough | src/utils/exportUtils.js:65-71 | a month of 0 is falsy, so the name falls back to `expenses_{year}.csv` |
| Export.TodayLast | src/utils/exportUtils.js:69-73 | without a range, and with an absent or zero year, the name is `expenses_{today}.csv` whatever the month |
| Export.MonthlyFilename | src/utils/exportUtils.js:65-66 | a month from 1 to 12 with a year gives `expenses_{year}_{MM}.csv`, whose `MM` are the two digits of the `YYYY-MM` keys |
| Export.SummaryHeaderText | src/utils/exportUtils.js:82 | the summary header is `Month,Total Expenses (₹),Number of Transactions` |
| Export.YearlySummaryCsv | src/utils/exportUtils.js:81-93 | the summary starts with its header |
| Export.SummaryLines | src/utils/exportUtils.js:84-93 | the summary splits into the header and one line per bucket, each reading back as the bucket's name, total and count |
| Export.YearlySummaryLines | src/utils/exportUtils.js:81-93 | a year's summary has thirteen lines; line `i + 1` reads back as month `i`'s abbreviation, total and count |
| Export.YearlySummaryFilename | src/utils/exportUtils.js:99 | the name is `yearly_summary_`, the year's digits and `.csv` |
| Form.DefaultCategory | src/components/ExpenseForm.jsx:7 | the default category is the first catalog id when there is one and it is non-empty, else `food`; never empty |
| Form.EmptyForm | src/components/ExpenseForm.jsx:5-10 | a fresh form has an empty amount and description, the default category and today's date. It is first shown with the empty catalog, so with `food`, and reset after a submission with the loaded catalog |
| Form.Validate | src/components/ExpenseForm.jsx:15-23 | the amount error iff the amount is empty or not positive. The description error iff the amount is fine and the description is blank. No error iff both are fine |
| Form.Submit | src/components/ExpenseForm.jsx:12-37 | a rejection carries the validation error. An acceptance hands over the positive amount, the category, the untrimmed description and the date, and resets the form |
| Form.HandleChange | src/components/ExpenseForm.jsx:39-45 | an edit sets the named field and keeps the others |
| Form.ChangesCommute | src/components/ExpenseForm.jsx:39-45 | edits to different fields can be made in either order |
| Form.LastChangeWins | src/components/ExpenseForm.jsx:39-45 | a second edit to a field overrides the first |
| Form.AmountCheckedFirst | src/components/ExpenseForm.jsx:15-23 | with both fields missing, the rejection is for the amount |
| Form.NoDoubleSubmit | src/components/ExpenseForm.jsx:31-36 | right after an accepted submission, submitting again is rejected for the empty amount |
| Form.FillAndSubmit | src/components/ExpenseForm.jsx:25-28 | filling amount and description into the empty form and submitting hands over exactly what was entered |
| App.LoadBudget | src/utils/localStorage.js:42-50 | the stored budget, or 5000 when nothing is stored |
| App.Mount | src/App.jsx:37-50 | after mounting, the state shows the stored records and budget, no filters, the current period and the monthly view |
| App.MountConsistent | src/App.jsx:37-50 | mounting over storage that only received positive budgets gives a consistent state with a positive budget |
| App.ConsistentBudgetPositive | src/App.jsx:80 | in a consistent state the budget is positive, so the percentage is always defined |
| App.NewExpense | src/App.jsx:60-64 | the new record carries the generated id and creation time and every submitted field |
| App.AddExpense | src/App.jsx:59-67 | the new record goes first, the old records follow unchanged and in order, the list is stored, and nothing else changes |
| App.DeleteExpense | src/App.jsx:69-76 | a confirmed delete removes exactly the records with the id, keeps the rest in order and stores them, even when none remain. An unconfirmed delete changes nothing |
| App.DeleteUndoesAdd | src/App.jsx:59-76 | adding a record under a fresh id, then deleting that id, gives the list back |
| App.DeleteLastIsStored | src/App.jsx:69-76 | deleting the last record stores the empty list |
| App.UpdateBudget | src/App.jsx:78-88 | a positive value becomes the budget, is stored, and closes the modal with its input cleared; anything else changes nothing |
| App.ChangeFilters | src/App.jsx:97-99 | the criteria become the given ones and nothing else changes |
| App.ClearFilters | src/App.jsx:101-108 | the criteria return to the cleared ones and nothing else changes |
| App.SelectPeriod | src/App.jsx:227-229 | the selected month and year become the given ones, with no bound on the year, and nothing else changes |
| App.SetView | src/App.jsx:198-210 | the view becomes the chosen one and nothing else changes |
| App.PreviousYear | src/App.jsx:281 | the yearly view's "Previous Year" moves the selection one year back and changes nothing else |
| App.NextYear | src/App.jsx:290-291 | the yearly view's "Next Year" moves one year forward below the current year and changes nothing from the current year on |
| App.YearButtonsStayInPast | src/App.jsx:281-291 | the yearly view's two buttons never move the selection past the current year: "Previous Year" steps back, "Next Year" is disabled from the current year on |
| App.SelectorYearStep | src/components/MonthYearSelector.jsx:14-20 | the period selector's arrows move the year one back or one forward with no guard, keeping the month |
| App.SelectorThisMonth | src/components/MonthYearSelector.jsx:22-25 | "This Month" selects the current month and year |
| App.SelectorPassesCurrentYear | src/components/MonthYearSelector.jsx:18-20 | from the current year, the yearly view's "Next Year" does nothing while the selector's forward arrow selects the year after; "This Month" brings the selection back |
| App.HandlersKeepConsistent | src/App.jsx:53-116 | every handler keeps storage equal to the record list and the budget positive |
| App.MonthExpenses | src/App.jsx:119 | the month's records are exactly those of the selected month and year, each as often as in the record list and in its order |
| App.FilteredMonthExpenses | src/App.jsx:119-122 | the list holds exactly the records of the selected month that meet the filters, each as often as in the month's records and in their order |
| App.SortedExpenses | src/App.jsx:123 | the shown list is a permutation of the filtered records, newest date first |
| App.TotalExpenses | src/App.jsx:125 | the total is that of the shown list. With non-negative amounts it lies between 0 and the month's unfiltered total |
| App.ClearedFiltersShowWholeMonth | src/App.jsx:101-122 | after clearing the filters the list holds the whole selected month |
| App.ExportOptionsOf | src/App.jsx:112-115 | the export's month is the selected month counted from 1, so it lies in 1..12 |
| App.ExportSelection | src/App.jsx:111 | the monthly view exports the filtered month, the yearly view every record |
| App.ExportFileNamedAfterPeriod | src/App.jsx:110-116 | the export file of a non-zero year is `expenses_{year}_{MM}.csv`, named after the selected period |
| App.MonthlyExportRows | src/App.jsx:110-116 | the monthly export writes one row per filtered record, in list order rather than the newest-first order shown |
| App.ExportNeedsRecords | src/App.jsx:110-116 | nothing is exported exactly when the selection is empty |

## Left out

- Browser storage is two fields of the application state: the stored records and the stored budget. Its I/O, JSON parsing, error handling and the stored category list are not modelled; the catalog is a parameter.
- Rendering, the theme toggle and the Chart.js options are left out. So are the `alert` and `confirm` dialogs: the confirmation is a boolean and an alert is a rejected outcome or an unchanged state.
- Download plumbing (blob, link, `msSaveBlob`) is left out; only the CSV text and the file name are modelled.
- `formatCurrency` is left out: it only formats numbers for display, through `Intl`.
- `formatDate` is a parameter of the export. Its `MMM dd, yyyy` pattern is spelled out as `Export.DisplayDate` only to state the finding below. `Export.DisplayDate` writes the year with `String(n)`, so years below 1000 are not padded to four digits as `yyyy` would pad them.
- `generateId` and every clock reading (today's date, the current year, `createdAt`, the seven days of the line chart) are parameters.
- Amounts and budgets are whole numbers and percentages exact reals; JavaScript floating point, `parseFloat` and `NaN` are not modelled.
- Form.Submit: the amount field is `None` (empty) or a number, instead of text parsed by `parseFloat`.
- App.UpdateBudget: takes the parsed budget (`None` for `NaN`) as a parameter, instead of parsing the text.
- Query.YearExpenses: dates are taken as `(year, month, day)` triples. The source parses `YYYY-MM-DD` as UTC but reads the year and month in local time, which can move a record across a month boundary; that is not modelled. The same holds for `Query.MonthYearExpenses` and `Grouping.MonthKey`.
- Sorting.CompareStrings: compares character codes lexicographically instead of the locale-aware `localeCompare`.
- Text.Lower: lowers ASCII letters only.
- Grouping.CategoryTotals: keeps first-appearance order for every key. A JavaScript object lists integer-like keys first, in numeric order; category ids are assumed not to look like integers.
- Grouping.GroupByCategory: a category id that names an `Object.prototype` property (`constructor`, `toString`, `valueOf`, `hasOwnProperty`, `__proto__`, ...) finds an inherited, truthy value in the accumulator, so the source's `push` throws a TypeError. The model gives such an id an ordinary group instead; the failure is not modelled.
- Grouping.CategoryTotals: for the same ids the source throws while grouping, and the model returns an ordinary entry.
- Charts.ChartsOf: for the same ids the source's render throws inside `getCategoryTotals`, and the model shows a dashboard. The form only offers catalog ids, but stored records are loaded as they are, so such an id can reach the charts.
- Query.MonthName: is defined for month indices 0..11 only; the source returns `undefined` outside that range.
- Budget.PercentageUsed: requires a positive budget. The source divides without checking; the application only ever stores a positive budget (`App.ConsistentBudgetPositive`).
- Export.Row: promises a read-back only for a description without double quotes. The source does not double inner quotes as section 2 of RFC 4180 requires, so no read-back is promised for such descriptions.
- Charts.ChartsOf: the line chart's day labels (`toLocaleDateString`) are not modelled; the days are a parameter, matched on the whole date.
- `getMonthlyExpenses` (src/utils/helpers.js:25-37) is left out: it relies on date-fns intervals and the application does not use it.
- src/components/ExpenseList.jsx is left out: it is presentation only, and its catalog lookup repeats what `Charts.LabelOf` and `Charts.ColourOf` model. Of src/components/MonthYearSelector.jsx only the three handlers are modelled (`App.SelectorYearStep`, `App.SelectorThisMonth`); its month drop-down is `App.SelectPeriod` with the year kept.
- Opening the budget modal and typing into it are left out; only its closing on a successful update is modelled.

## Findings

| source | as written | input that shows it | evidently intended | confidence | as-written member | corrected member |
|---|---|---|---|---|---|---|
| src/utils/exportUtils.js:19-24 | the Date column is `formatDate(expense.date)` written without quotes. `formatDate` uses the pattern `MMM dd, yyyy` (src/utils/helpers.js:17), whose output holds a comma | a record dated 2024-01-05 in category `food` gives `Jan 05, 2024,food,"lunch",10`. That reads as five columns under the four-column header, with the category under "Description" | the date is one column, quoted like the description | high; not executed | Export.RowWithDisplayDateHasFiveColumns | Export.QuotedDateRowHasFourColumns |

`Export.ExportCsv` keeps the source's row format, so that it models what the
application writes. The corrected row is `Export.QuotedDateRow`.

=== FILE: app.dfy ===
/** The application state (src/App.jsx): the record list and what is stored of
    it, the budget, the filters, the selected period and view, and the handlers
    that change them; then the values derived for the monthly view and the export.
    Browser storage is modelled as two fields of the state, the confirmation and
    alert dialogs as a boolean, and generated ids, timestamps and the current year
    as parameters. */
module App {
  import opened Seqs
  import opened Text
  import opened Model
  import opened Query
  import opened Sorting
  import opened Grouping
  import opened Form
  import opened Export

  datatype View = Monthly | Yearly

  datatype AppState = AppState(
    expenses: seq<Expense>,
    storedExpenses: seq<Expense>,
    budget: int,
    storedBudget: Option<int>,
    filters: Criteria,
    selectedMonth: MonthIndex,
    selectedYear: int,
    view: View,
    showBudgetModal: bool,
    newBudget: string)

  /** `loadBudget`: the stored budget, or the default when nothing is stored. */
  function LoadBudget(stored: Option<int>): (r: int)
    ensures stored.None? ==> r == DefaultBudget
    ensures stored.Some? ==> r == stored.value
  {
    match stored
    case None => DefaultBudget
    case Some(b) => b
  }

  /** The state after mounting: the stored records and budget, no filters, the
      current month and year, the monthly view. */
  function Mount(storedExpenses: seq<Expense>, storedBudget: Option<int>, month: MonthIndex, year: int): (r: AppState)
    ensures r.expenses == storedExpenses && r.budget == LoadBudget(storedBudget)
    ensures r.filters == NoCriteria && r.view == Monthly
    ensures r.selectedMonth == month && r.selectedYear == year
  {
    AppState(storedExpenses, storedExpenses, LoadBudget(storedBudget), storedBudget,
             NoCriteria, month, year, Monthly, false, "")
  }

  /** What is stored matches what is shown, and the budget is a positive one. */
  predicate Consistent(s: AppState) {
    && s.storedExpenses == s.expenses
    && (s.storedBudget.Some? ==> s.storedBudget.value > 0)
    && s.budget == LoadBudget(s.storedBudget)
  }

  /** Mounting over storage that only ever received positive budgets gives a
      consistent state with a positive budget. */
  lemma MountConsistent(storedExpenses: seq<Expense>, storedBudget: Option<int>, month: MonthIndex, year: int)
    requires storedBudget.Some? ==> storedBudget.value > 0
    ensures Consistent(Mount(storedExpenses, storedBudget, month, year))
    ensures Mount(storedExpenses, storedBudget, month, year).budget > 0
  {
  }

  /** A consistent state always has a positive budget. */
  lemma ConsistentBudgetPositive(s: AppState)
    requires Consistent(s)
    ensures s.budget > 0
  {
  }

  /** The record a draft becomes, with its generated id and creation time. */
  function NewExpense(d: Draft, id: string, createdAt: string): (r: Expense)
    ensures r.id == id && r.createdAt == createdAt
    ensures r.amount == d.amount && r.category == d.category
    ensures r.description == d.description && r.date == d.date
  {
    Expense(id, d.amount, d.category, d.description, d.date, createdAt)
  }

  /** `handleAddExpense`: the new record goes first; the list, now non-empty, is
      stored. */
  function AddExpense(s: AppState, d: Draft, id: string, createdAt: string): (r: AppState)
    ensures r.expenses == [NewExpense(d, id, createdAt)] + s.expenses
    ensures r.storedExpenses == r.expenses
    ensures r == s.(expenses := r.expenses, storedExpenses := r.storedExpenses)
  {
    var es := [NewExpense(d, id, createdAt)] + s.expenses;
    s.(expenses := es, storedExpenses := es)
  }

  function HasId(id: string): Expense -> bool {
    (e: Expense) => e.id != id
  }

  /** `handleDeleteExpense`: once confirmed, every record with the id goes and the
      remaining list is stored, even when it is empty; unconfirmed, nothing
      changes. */
  function DeleteExpense(s: AppState, id: string, confirmed: bool): (r: AppState)
    ensures !confirmed ==> r == s
    ensures confirmed ==> r == s.(expenses := r.expenses, storedExpenses := r.expenses)
    ensures confirmed ==> forall e :: e in r.expenses <==> e in s.expenses && e.id != id
    ensures confirmed ==> IsSubseq(r.expenses, s.expenses)
    ensures confirmed ==> forall e :: multiset(r.expenses)[e] == if e.id == id then 0 else multiset(s.expenses)[e]
  {
    if confirmed then
      var es := Filter(s.expenses, HasId(id));
      FilterMultiset(s.expenses, HasId(id));
      FilterIsSubseq(s.expenses, HasId(id));
      s.(expenses := es, storedExpenses := es)
    else s
  }

  /** Adding a record under a fresh id and then deleting that id gives the list
      back. */
  lemma DeleteUndoesAdd(s: AppState, d: Draft, id: string, createdAt: string)
    requires forall e :: e in s.expenses ==> e.id != id
    ensures DeleteExpense(AddExpense(s, d, id, createdAt), id, true).expenses == s.expenses
  {
    FilterAppend([NewExpense(d, id, createdAt)], s.expenses, HasId(id));
    FilterKeepsAll(s.expenses, HasId(id));
    assert Filter([NewExpense(d, id, createdAt)], HasId(id)) == [];
  }

  /** Deleting the last record stores the empty list; storage does not keep the
      deleted record. */
  lemma DeleteLastIsStored(s: AppState, e: Expense)
    requires s.expenses == [e]
    ensures DeleteExpense(s, e.id, true).expenses == []
    ensures DeleteExpense(s, e.id, true).storedExpenses == []
  {
    assert !HasId(e.id)(e);
    FilterKeepsNone(s.expenses, HasId(e.id));
  }

  /** `handleUpdateBudget`, given `parseFloat` of the typed text (`None` for NaN): a
      positive value becomes the budget, is stored, and closes the modal with the
      input cleared; anything else leaves the state as it is. */
  function UpdateBudget(s: AppState, parsed: Option<int>): (r: AppState)
    ensures parsed.Some? && parsed.value > 0 ==>
              r == s.(budget := parsed.value, storedBudget := parsed, showBudgetModal := false, newBudget := "")
    ensures !(parsed.Some? && parsed.value > 0) ==> r == s
  {
    if parsed.Some? && parsed.value > 0 then
      s.(budget := parsed.value, storedBudget := parsed, showBudgetModal := false, newBudget := "")
    else s
  }

  /** `handleFilterChange`. */
  function ChangeFilters(s: AppState, f: Criteria): (r: AppState)
    ensures r.filters == f && r == s.(filters := f)
  {
    s.(filters := f)
  }

  /** `handleClearFilters`: back to the criteria the application starts with. */
  function ClearFilters(s: AppState): (r: AppState)
    ensures r.filters == NoCriteria && r == s.(filters := NoCriteria)
  {
    s.(filters := NoCriteria)
  }

  /** `setSelectedMonth` / `setSelectedYear`, as the period selector calls them. */
  function SelectPeriod(s: AppState, month: MonthIndex, year: int): (r: AppState)
    ensures r.selectedMonth == month && r.selectedYear == year
    ensures r == s.(selectedMonth := month, selectedYear := year)
  {
    s.(selectedMonth := month, selectedYear := year)
  }

  function SetView(s: AppState, v: View): (r: AppState)
    ensures r.view == v && r == s.(view := v)
  {
    s.(view := v)
  }

  /** The yearly view's "Previous Year" button, never disabled. */
  function PreviousYear(s: AppState): (r: AppState)
    ensures r.selectedYear == s.selectedYear - 1 && r == s.(selectedYear := r.selectedYear)
  {
    s.(selectedYear := s.selectedYear - 1)
  }

  /** "Next Year" is disabled from the current year on. */
  predicate NextYearDisabled(s: AppState, currentYear: int) {
    s.selectedYear >= currentYear
  }

  /** A click on "Next Year": a year forward, unless the button is disabled. */
  function NextYear(s: AppState, currentYear: int): (r: AppState)
    ensures NextYearDisabled(s, currentYear) ==> r == s
    ensures !NextYearDisabled(s, currentYear) ==> r == s.(selectedYear := s.selectedYear + 1)
  {
    if NextYearDisabled(s, currentYear) then s else s.(selectedYear := s.selectedYear + 1)
  }

  /** The yearly view's two buttons never take the selection past the current year. */
  lemma YearButtonsStayInPast(s: AppState, currentYear: int)
    requires s.selectedYear <= currentYear
    ensures NextYear(s, currentYear).selectedYear <= currentYear
    ensures PreviousYear(s).selectedYear <= currentYear
  {
  }

  /** The period selector's year arrows: a year back or forward, with no guard,
      and the month kept. */
  function SelectorYearStep(s: AppState, forward: bool): (r: AppState)
    ensures r.selectedYear == (if forward then s.selectedYear + 1 else s.selectedYear - 1)
    ensures r.selectedMonth == s.selectedMonth && r == SelectPeriod(s, s.selectedMonth, r.selectedYear)
  {
    SelectPeriod(s, s.selectedMonth, if forward then s.selectedYear + 1 else s.selectedYear - 1)
  }

  /** The period selector's "This Month" button: back to the current month and year. */
  function SelectorThisMonth(s: AppState, currentMonth: MonthIndex, currentYear: int): (r: AppState)
    ensures r.selectedMonth == currentMonth && r.selectedYear == currentYear
    ensures r == SelectPeriod(s, currentMonth, currentYear)
  {
    SelectPeriod(s, currentMonth, currentYear)
  }

  /** Unlike the yearly view's disabled "Next Year", the selector's forward arrow
      moves from the current year into the future, and "This Month" brings the
      selection back. */
  lemma SelectorPassesCurrentYear(s: AppState, currentMonth: MonthIndex, currentYear: int)
    requires s.selectedYear == currentYear
    ensures NextYear(s, currentYear) == s
    ensures SelectorYearStep(s, true).selectedYear == currentYear + 1 > currentYear
    ensures SelectorThisMonth(SelectorYearStep(s, true), currentMonth, currentYear).selectedYear == currentYear
  {
  }

  /** Every handler keeps the state consistent: storage follows the record list,
      and the budget stays the stored positive one (or the default). */
  lemma HandlersKeepConsistent(s: AppState, d: Draft, id: string, createdAt: string, confirmed: bool,
                               parsed: Option<int>, f: Criteria, month: MonthIndex, year: int, v: View, currentYear: int)
    requires Consistent(s)
    ensures Consistent(AddExpense(s, d, id, createdAt))
    ensures Consistent(DeleteExpense(s, id, confirmed))
    ensures Consistent(UpdateBudget(s, parsed))
    ensures Consistent(ChangeFilters(s, f)) && Consistent(ClearFilters(s))
    ensures Consistent(SelectPeriod(s, month, year)) && Consistent(SetView(s, v))
    ensures Consistent(PreviousYear(s)) && Consistent(NextYear(s, currentYear))
  {
  }

  // ---------------------------------------------------------------------------
  // Derived values of the monthly view

  /** `monthExpenses`: the records of the selected month and year. */
  function MonthExpenses(s: AppState): (r: seq<Expense>)
    ensures forall e :: e in r <==> e in s.expenses && e.date.month == s.selectedMonth && e.date.year == s.selectedYear
    ensures forall e :: multiset(r)[e]
                       == if e.date.month == s.selectedMonth && e.date.year == s.selectedYear then multiset(s.expenses)[e] else 0
    ensures IsSubseq(r, s.expenses)
  {
    MonthYearExpenses(s.expenses, s.selectedMonth, s.selectedYear)
  }

  /** `filteredMonthExpenses`: those that also meet the filters. */
  function FilteredMonthExpenses(s: AppState): (r: seq<Expense>)
    ensures forall e :: e in r <==>
              e in s.expenses && e.date.month == s.selectedMonth && e.date.year == s.selectedYear && Matches(e, s.filters)
    ensures forall e :: multiset(r)[e] == if Matches(e, s.filters) then multiset(MonthExpenses(s))[e] else 0
    ensures IsSubseq(r, MonthExpenses(s))
    ensures |r| <= |MonthExpenses(s)|
  {
    var month := MonthExpenses(s);
    FilterExpensesSpec(month, s.filters);
    FilterExpenses(month, s.filters)
  }

  /** `sortedExpenses`: the filtered records, newest date first, for the list. */
  function SortedExpenses(s: AppState): (r: seq<Expense>)
    ensures multiset(r) == multiset(FilteredMonthExpenses(s))
    ensures Sorted(Desc, ByDate, r)
    ensures forall i, j :: 0 <= i < j < |r| ==> DateLe(r[j].date, r[i].date)
  {
    var r := SortExpenses(FilteredMonthExpenses(s), ByDate, Desc);
    forall i, j | 0 <= i < j < |r| ensures DateLe(r[j].date, r[i].date) {
      assert Cmp(Desc, ByDate, r[i], r[j]) <= 0;
      CmpAntisymmetric(Desc, ByDate, r[i], r[j]);
    }
    r
  }

  /** `totalExpenses`: the total of the filtered records, which the budget card
      shows against the budget. It is also the total of the list as shown, newest
      first; with non-negative amounts it lies between zero and the month's
      unfiltered total. */
  function TotalExpenses(s: AppState): (r: int)
    ensures r == Total(SortedExpenses(s))
    ensures NonNegativeAmounts(s.expenses) ==> 0 <= r <= Total(MonthExpenses(s))
  {
    var filtered := FilteredMonthExpenses(s);
    SumPermutation(SortedExpenses(s), filtered, AmountOf);
    if NonNegativeAmounts(s.expenses) then
      SumFilterBound(MonthExpenses(s), MatchesAll(s.filters), AmountOf);
      Total(filtered)
    else Total(filtered)
  }

  /** With the filters cleared, the monthly view shows the whole month. */
  lemma ClearedFiltersShowWholeMonth(s: AppState)
    ensures FilteredMonthExpenses(ClearFilters(s)) == MonthExpenses(s)
  {
    FilterExpensesNoCriteria(MonthExpenses(s));
  }

  // ---------------------------------------------------------------------------
  // Export

  /** `handleExport`'s records: the filtered month in the monthly view, every
      record in the yearly view. */
  function ExportSelection(s: AppState): (r: seq<Expense>)
    ensures s.view == Monthly ==> r == FilteredMonthExpenses(s)
    ensures s.view == Yearly ==> r == s.expenses
  {
    if s.view == Monthly then FilteredMonthExpenses(s) else s.expenses
  }

  /** `handleExport`'s options: the selected month counted from 1, and the year. */
  function ExportOptionsOf(s: AppState): (r: ExportOptions)
    ensures r.dateRange.None? && r.month == Some(s.selectedMonth + 1) && r.year == Some(s.selectedYear)
    ensures 1 <= r.month.value <= 12
  {
    ExportOptions(None, Some(s.selectedMonth + 1), Some(s.selectedYear))
  }

  /** The export file of a non-zero selected year is named after the year and the
      selected month, in either view; the month is written with the same two
      digits, counted from 1, as in the `YYYY-MM` month keys. */
  lemma ExportFileNamedAfterPeriod(s: AppState, today: string)
    requires s.selectedYear != 0
    ensures Filename(ExportOptionsOf(s), today)
            == "expenses_" + IntToString(s.selectedYear) + "_" + MonthDigits(s.selectedMonth) + ".csv"
  {
    assert ExportOptionsOf(s) == ExportOptions(None, Some(s.selectedMonth + 1), Some(s.selectedYear));
    MonthlyFilename(s.selectedMonth, s.selectedYear, today);
  }

  /** The monthly export writes the filtered records in list order, not in the
      newest-first order the list shows; the rows are a rearrangement of the list. */
  lemma MonthlyExportRows(s: AppState, formatDate: Date -> string)
    requires s.view == Monthly && FilteredMonthExpenses(s) != []
    requires forall e :: e in s.expenses ==> SingleLine(e, formatDate)
    ensures var lines := Split(ExportCsv(ExportSelection(s), formatDate).value, '\n');
            && |lines| == |SortedExpenses(s)| + 1
            && forall i :: 0 <= i < |SortedExpenses(s)| ==> lines[i + 1] == Row(FilteredMonthExpenses(s)[i], formatDate)
  {
    var filtered := FilteredMonthExpenses(s);
    forall e | e in filtered ensures SingleLine(e, formatDate) {
      assert e in s.expenses;
    }
    ExportLines(filtered, formatDate);
    assert |multiset(SortedExpenses(s))| == |multiset(filtered)|;
  }

  /** Nothing is exported, and an alert is shown, exactly when the selection is
      empty. */
  lemma ExportNeedsRecords(s: AppState, formatDate: Date -> string)
    ensures ExportCsv(ExportSelection(s), formatDate).None? <==> ExportSelection(s) == []
  {
  }
}

=== FILE: budget.dfy ===
/** The budget card (src/components/BudgetSummary.jsx): what is left of the
    budget, the share of it already spent, the status that share falls in, the
    width of the progress bar and the period the card is labelled with. */
module Budget {
  import opened Text
  import opened Model
  import opened Query

  /** `remaining` as the card shows it: its magnitude, and whether it is drawn
      as negative. */
  datatype Remaining = Remaining(magnitude: nat, negative: bool)

  /** `budget - totalExpenses`, shown as `Math.abs(remaining)` and flagged
      negative exactly when more has been spent than budgeted. */
  function RemainingOf(budget: int, spent: int): (r: Remaining)
    ensures r.negative <==> spent > budget
    ensures r.negative ==> spent - r.magnitude == budget
    ensures !r.negative ==> spent + r.magnitude == budget
  {
    var rem := budget - spent;
    if rem < 0 then Remaining(-rem, true) else Remaining(rem, false)
  }

  /** `percentageUsed`: the spent amount as a percentage of the budget. The
      application only ever stores a positive budget. */
  function PercentageUsed(budget: int, spent: int): (r: real)
    requires budget > 0
    ensures r * budget as real == spent as real * 100.0
  {
    spent as real / budget as real * 100.0
  }

  datatype Status = Success | Warning | Danger

  /** Position of a status on the scale success < warning < danger. */
  function Severity(s: Status): nat {
    match s
    case Success => 0
    case Warning => 1
    case Danger => 2
  }

  /** `getStatus`: danger from 90 percent on, warning from 70 percent on. */
  function StatusOf(pct: real): Status {
    if pct >= 90.0 then Danger
    else if pct >= 70.0 then Warning
    else Success
  }

  /** The status of a spent amount against a budget, in whole-number terms: danger
      once nine tenths of the budget are spent, warning from seven tenths. */
  function BudgetStatus(budget: int, spent: int): (r: Status)
    requires budget > 0
    ensures r == Danger <==> 10 * spent >= 9 * budget
    ensures r == Warning <==> 7 * budget <= 10 * spent < 9 * budget
    ensures r == Success <==> 10 * spent < 7 * budget
  {
    var pct := PercentageUsed(budget, spent);
    PercentageThreshold(budget, spent, 90);
    PercentageThreshold(budget, spent, 70);
    StatusOf(pct)
  }

  /** The percentage reaches `t` exactly when the spent amount reaches `t`
      hundredths of the budget. */
  lemma PercentageThreshold(budget: int, spent: int, t: int)
    requires budget > 0
    ensures PercentageUsed(budget, spent) >= t as real <==> 100 * spent >= t * budget
  {
    var pct := PercentageUsed(budget, spent);
    var b := budget as real;
    if pct >= t as real {
      assert pct * b >= t as real * b;
    } else {
      assert pct * b < t as real * b;
    }
  }

  /** For a fixed budget, spending more never lowers the status. */
  lemma StatusMonotone(budget: int, spent: int, more: int)
    requires budget > 0 && spent <= more
    ensures Severity(BudgetStatus(budget, spent)) <= Severity(BudgetStatus(budget, more))
  {
  }

  /** The width of the progress bar: the percentage, capped at 100. */
  function ProgressWidth(budget: int, spent: int): (r: real)
    requires budget > 0
    ensures r <= 100.0
    ensures r == 100.0 || r == PercentageUsed(budget, spent)
    ensures spent <= budget ==> r == PercentageUsed(budget, spent)
    ensures spent >= budget ==> r == 100.0
    ensures spent >= 0 ==> r >= 0.0
  {
    var pct := PercentageUsed(budget, spent);
    PercentageThreshold(budget, spent, 100);
    if pct < 100.0 then pct else 100.0
  }

  /** `periodLabel`: the month's name and the year when both are selected, else
      "Current Month". */
  function PeriodLabel(month: Option<MonthIndex>, year: Option<int>): (r: string)
    ensures month.Some? && year.Some? ==>
              && MonthName(month.value) <= r && |MonthName(month.value)| < |r|
              && r[|MonthName(month.value)|] == ' '
              && r[|MonthName(month.value)| + 1..] == IntToString(year.value)
    ensures !(month.Some? && year.Some?) ==> r == "Current Month"
  {
    if month.Some? && year.Some? then MonthName(month.value) + " " + IntToString(year.value)
    else "Current Month"
  }

  /** No month name contains a space. */
  lemma MonthNamesHaveNoSpace(m: MonthIndex)
    ensures ' ' !in MonthName(m)
  {
    assert MonthNames[m] in MonthNames;
  }

  /** A selected period's label splits at its space back into the month's name
      and the year's digits. */
  lemma PeriodLabelSplits(m: MonthIndex, y: int)
    ensures Split(PeriodLabel(Some(m), Some(y)), ' ') == [MonthName(m), IntToString(y)]
  {
    MonthNamesHaveNoSpace(m);
    var digits := IntToString(y);
    assert ' ' !in digits by {
      forall k | 0 <= k < |digits| ensures digits[k] != ' ' {
      }
    }
    SplitJoin([MonthName(m), digits], ' ');
    assert Join([MonthName(m), digits], ' ') == MonthName(m) + " " + digits;
  }
}

=== FILE: charts.dfy ===
/** The data behind the dashboard charts (src/components/Charts.jsx): the pie of
    category totals, the bar chart of the first five categories and the line of
    daily totals. The seven days of the line chart come from the clock, so they
    are a parameter here. */
module Charts {
  import opened Seqs
  import opened Model
  import opened Query
  import opened Grouping

  /** The colour used for a category missing from the catalog. */
  const FallbackColour := "#64748b"

  /** `categories.find(c => c.id === id)`: the first catalog entry with that id. */
  function FindCategory(cats: seq<Category>, id: string): (r: Option<Category>)
    ensures r.None? <==> forall i :: 0 <= i < |cats| ==> cats[i].id != id
    ensures r.Some? ==> exists i :: 0 <= i < |cats| && cats[i] == r.value && FirstWithId(cats, id, i)
    ensures forall i :: FirstWithId(cats, id, i) ==> r == Some(cats[i])
  {
    if cats == [] then None
    else if cats[0].id == id then
      assert FirstWithId(cats, id, 0);
      Some(cats[0])
    else
      var r := FindCategory(cats[1..], id);
      assert forall i :: FirstWithId(cats[1..], id, i) ==> FirstWithId(cats, id, i + 1);
      assert forall i :: FirstWithId(cats, id, i) ==> FirstWithId(cats[1..], id, i - 1);
      r
  }

  /** `cats[i]` is the first entry with the id. */
  predicate FirstWithId(cats: seq<Category>, id: string, i: int) {
    0 <= i < |cats| && cats[i].id == id && forall j :: 0 <= j < i ==> cats[j].id != id
  }

  /** A category's label: its catalog name, or the raw id when it is not listed. */
  function LabelOf(cats: seq<Category>, id: string): (r: string)
    ensures (forall i :: 0 <= i < |cats| ==> cats[i].id != id) ==> r == id
    ensures forall i :: FirstWithId(cats, id, i) ==> r == cats[i].name
  {
    match FindCategory(cats, id)
    case Some(c) => c.name
    case None => id
  }

  /** A category's colour: its catalog colour, or the neutral fallback. */
  function ColourOf(cats: seq<Category>, id: string): (r: string)
    ensures (forall i :: 0 <= i < |cats| ==> cats[i].id != id) ==> r == FallbackColour
    ensures forall i :: FirstWithId(cats, id, i) ==> r == cats[i].color
  {
    match FindCategory(cats, id)
    case Some(c) => c.color
    case None => FallbackColour
  }

  /** A default category is labelled and coloured from the default catalog. */
  lemma DefaultCatalogLabels()
    ensures LabelOf(DefaultCategories, "food") == "Food & Dining"
    ensures ColourOf(DefaultCategories, "food") == "#ef4444"
  {
    assert FirstWithId(DefaultCategories, "food", 0);
  }

  /** A category missing from the default catalog falls back to its id and the
      neutral colour. */
  lemma UnknownCategoryFallsBack()
    ensures LabelOf(DefaultCategories, "gifts") == "gifts"
    ensures ColourOf(DefaultCategories, "gifts") == FallbackColour
  {
    forall i | 0 <= i < |DefaultCategories| ensures DefaultCategories[i].id != "gifts" {
      assert DefaultCategories[i].id[0] != 'g';
    }
  }

  /** What the charts component shows. */
  datatype ChartsView =
    | EmptyState
    | Dashboard(
        pieLabels: seq<string>,
        pieData: seq<int>,
        pieColours: seq<string>,
        barLabels: seq<string>,
        barData: seq<int>,
        dailyTotals: seq<int>)

  function OnDay(d: Date): Expense -> bool {
    KeyIs(DateOf, d)
  }

  /** `dailyTotals`: for each day, the total of the records dated that day. */
  function DailyTotals(es: seq<Expense>, days: seq<Date>): (r: seq<int>)
    ensures |r| == |days|
    ensures forall i :: 0 <= i < |days| ==> r[i] == Total(Filter(es, OnDay(days[i])))
  {
    seq(|days|, i requires 0 <= i < |days| => Total(Filter(es, OnDay(days[i]))))
  }

  function Min(a: int, b: int): int { if a < b then a else b }

  /** The charts for a record list: the empty state when there are no records,
      otherwise the pie of all category totals, the bar of the first five in order
      of first appearance, and the daily totals. */
  function ChartsOf(es: seq<Expense>, cats: seq<Category>, days: seq<Date>): (r: ChartsView)
    ensures r.EmptyState? <==> es == []
    ensures r.Dashboard? ==>
              var totals := CategoryTotals(es);
              && |r.pieLabels| == |r.pieData| == |r.pieColours| == |totals|
              && (forall i :: 0 <= i < |totals| ==>
                    && r.pieLabels[i] == LabelOf(cats, totals[i].category)
                    && r.pieData[i] == totals[i].total
                    && r.pieColours[i] == ColourOf(cats, totals[i].category))
              && |r.barLabels| == |r.barData| == Min(5, |totals|)
              && r.barLabels == r.pieLabels[..Min(5, |totals|)]
              && r.barData == r.pieData[..Min(5, |totals|)]
              && |r.dailyTotals| == |days|
              && r.dailyTotals == DailyTotals(es, days)
  {
    if |es| == 0 then EmptyState
    else
      var totals := CategoryTotals(es);
      var top := totals[..Min(5, |totals|)];
      Dashboard(
        Map(totals, (t: CategoryTotal) => LabelOf(cats, t.category)),
        Map(totals, TotalOfEntry),
        Map(totals, (t: CategoryTotal) => ColourOf(cats, t.category)),
        Map(top, (t: CategoryTotal) => LabelOf(cats, t.category)),
        Map(top, TotalOfEntry),
        DailyTotals(es, days))
  }

  function Identity(x: int): int { x }

  /** The pie's slices add up to the total of all records. */
  lemma PieAddsUpToTotal(es: seq<Expense>, cats: seq<Category>, days: seq<Date>)
    requires es != []
    ensures Sum(ChartsOf(es, cats, days).pieData, Identity) == Total(es)
  {
    var totals := CategoryTotals(es);
    CategoryTotalsConserve(es);
    SumOfMapped(totals, TotalOfEntry);
  }

  lemma {:induction false} SumOfMapped<T>(s: seq<T>, w: T -> int)
    ensures Sum(Map(s, w), Identity) == Sum(s, w)
    decreases |s|
  {
    if s != [] {
      SumOfMapped(s[1..], w);
      assert Map(s, w)[1..] == Map(s[1..], w);
    }
  }

  function InDays(days: seq<Date>): Expense -> bool {
    (e: Expense) => e.date in days
  }

  /** For distinct days, the daily totals add up to the total of the records dated
      on one of those days. */
  lemma DailyTotalsAddUp(es: seq<Expense>, days: seq<Date>)
    requires Distinct(days)
    ensures Sum(DailyTotals(es, days), Identity) == Total(Filter(es, InDays(days)))
  {
    var inDays := Filter(es, InDays(days));
    DailyTotalsBySum(es, days);
    PartitionSum(days, inDays, DateOf, AmountOf);
  }

  lemma {:induction false} DailyTotalsBySum(es: seq<Expense>, days: seq<Date>)
    ensures Sum(DailyTotals(es, days), Identity) ==
              SumByKey(days, Filter(es, InDays(days)), DateOf, AmountOf)
    decreases |days|
  {
    if days != [] {
      var rest := days[1..];
      DailyTotalsBySum(es, rest);
      assert DailyTotals(es, days)[1..] == DailyTotals(es, rest);
      OnDayWithin(days[0], days, InDays(days));
      FilterFilter(es, InDays(days), OnDay(days[0]), OnDay(days[0]));
      DayWithinDays(es, days, rest);
    }
  }

  /** A predicate that holds on every date in `days` holds on the records of any one
      of those days. */
  lemma OnDayWithin(d: Date, days: seq<Date>, p: Expense -> bool)
    requires d in days
    requires forall e: Expense :: e.date in days ==> p(e)
    ensures forall x :: OnDay(d)(x) == (p(x) && OnDay(d)(x))
  {
    forall x: Expense ensures OnDay(d)(x) == (p(x) && OnDay(d)(x)) {
      if OnDay(d)(x) {
        assert KeyIs(DateOf, d)(x) == (DateOf(x) == d);
        assert x.date in days;
      }
    }
  }

  /** Restricting to a day of `rest` first to the days of `days` or first to the
      days of `rest` makes no difference, when `rest` is part of `days`. */
  lemma DayWithinDays(es: seq<Expense>, days: seq<Date>, rest: seq<Date>)
    requires |days| > 0 && rest == days[1..]
    ensures SumByKey(rest, Filter(es, InDays(rest)), DateOf, AmountOf)
            == SumByKey(rest, Filter(es, InDays(days)), DateOf, AmountOf)
  {
    SumByKeyRestrict(rest, es, InDays(rest), InDays(days));
  }

  /** Pre-filtering with any predicate that holds on every date in `ks` does not
      change the per-key sums. */
  lemma {:induction false} SumByKeyRestrict(ks: seq<Date>, es: seq<Expense>, p: Expense -> bool, q: Expense -> bool)
    requires forall e: Expense :: e.date in ks ==> p(e) && q(e)
    ensures SumByKey(ks, Filter(es, p), DateOf, AmountOf) == SumByKey(ks, Filter(es, q), DateOf, AmountOf)
    decreases |ks|
  {
    if ks != [] {
      SumByKeyRestrict(ks[1..], es, p, q);
      var d := OnDay(ks[0]);
      OnDayWithin(ks[0], ks, p);
      OnDayWithin(ks[0], ks, q);
      FilterFilter(es, p, d, d);
      FilterFilter(es, q, d, d);
    }
  }
}

=== FILE: csv.dfy ===
/** How a CSV reader that honours double quotes (section 2 of RFC 4180) cuts one
    record into columns: at every comma that is not inside a quoted section. A
    column keeps its quotes here; only the column boundaries matter. */
module Csv {
  import opened Text

  /** Number of double quotes in `s`. */
  function Quotes(s: string): nat {
    multiset(s)['"']
  }

  /** The columns of `s`, read from a state that is inside quotes or not. */
  function Columns(s: string, inQuotes: bool): (r: seq<string>)
    ensures |r| >= 1
    decreases |s|
  {
    if s == [] then [""]
    else if s[0] == ',' && !inQuotes then [""] + Columns(s[1..], inQuotes)
    else
      var rest := Columns(s[1..], if s[0] == '"' then !inQuotes else inQuotes);
      [[s[0]] + rest[0]] + rest[1..]
  }

  /** The columns of one record. */
  function RecordColumns(s: string): seq<string> {
    Columns(s, false)
  }

  /** `p` is read as one column: its quotes are balanced and each of its commas is
      inside quotes. */
  predicate SingleColumn(p: string) {
    && Quotes(p) % 2 == 0
    && forall i :: 0 <= i < |p| && p[i] == ',' ==> Quotes(p[..i]) % 2 == 1
  }

  /** `"` + s + `"`: a field wrapped in double quotes. */
  function Quoted(s: string): string {
    "\"" + s + "\""
  }

  /** Read from state `q`, every comma of `p` falls inside quotes. */
  predicate CommasQuoted(p: string, q: bool) {
    forall i :: 0 <= i < |p| && p[i] == ',' ==> (q != (Quotes(p[..i]) % 2 == 1))
  }

  /** The quote state after reading `c` from state `q`. */
  function Flip(c: char, q: bool): bool {
    if c == '"' then !q else q
  }

  lemma QuotesCons(c: char, s: string)
    ensures Quotes([c] + s) == (if c == '"' then 1 else 0) + Quotes(s)
  {
    assert multiset([c] + s) == multiset([c]) + multiset(s);
  }

  /** After the first character, the rest of `p` still has its commas inside quotes. */
  lemma CommasQuotedTail(p: string, q: bool)
    requires p != [] && CommasQuoted(p, q)
    ensures CommasQuoted(p[1..], Flip(p[0], q))
  {
    var tail := p[1..];
    forall i | 0 <= i < |tail| && tail[i] == ','
      ensures Flip(p[0], q) != (Quotes(tail[..i]) % 2 == 1)
    {
      assert p[..i + 1] == [p[0]] + tail[..i];
      QuotesCons(p[0], tail[..i]);
      assert p[i + 1] == ',';
    }
  }

  /** A character other than a comma outside quotes joins the current column. */
  lemma ColumnsStep(s: string, q: bool)
    requires s != [] && (s[0] != ',' || q)
    ensures var rest := Columns(s[1..], Flip(s[0], q));
            Columns(s, q) == [[s[0]] + rest[0]] + rest[1..]
  {
  }

  /** Reading `c` and then `tail` flips the state as often as reading `[c] + tail`. */
  lemma FlipParity(c: char, tail: string, q: bool)
    ensures (Flip(c, q) != (Quotes(tail) % 2 == 1)) == (q != (Quotes([c] + tail) % 2 == 1))
  {
    QuotesCons(c, tail);
  }

  /** Reading through a stretch `p` whose commas are all inside quotes adds `p` to
      the current column and flips the quote state once per quote in `p`. */
  lemma {:induction false} ColumnsThrough(p: string, t: string, q: bool)
    requires CommasQuoted(p, q)
    ensures var after := Columns(t, q != (Quotes(p) % 2 == 1));
            Columns(p + t, q) == [p + after[0]] + after[1..]
    decreases |p|
  {
    if p == [] {
      assert p + t == t;
      assert Quotes(p) == 0;
      var after := Columns(t, q);
      assert p + after[0] == after[0];
      assert after == [after[0]] + after[1..];
    } else {
      var c, tail := p[0], p[1..];
      assert p == [c] + tail;
      CommasQuotedTail(p, q);
      ColumnsThrough(tail, t, Flip(c, q));
      FlipParity(c, tail, q);
      ThroughOne(p, t, q);
    }
  }

  /** The step of `ColumnsThrough`: its claim for `p` follows from its claim for the
      tail of `p`. */
  lemma ThroughOne(p: string, t: string, q: bool)
    requires p != [] && CommasQuoted(p, q)
    requires var after := Columns(t, Flip(p[0], q) != (Quotes(p[1..]) % 2 == 1));
             Columns(p[1..] + t, Flip(p[0], q)) == [p[1..] + after[0]] + after[1..]
    requires (Flip(p[0], q) != (Quotes(p[1..]) % 2 == 1)) == (q != (Quotes(p) % 2 == 1))
    ensures var after := Columns(t, q != (Quotes(p) % 2 == 1));
            Columns(p + t, q) == [p + after[0]] + after[1..]
  {
    assert p[0] != ',' || q by {
      assert p[..0] == [];
    }
    assert p + t == [p[0]] + (p[1..] + t);
    ColumnsCons(p[0], p[1..] + t, q);
    var after := Columns(t, q != (Quotes(p) % 2 == 1));
    PrefixFirstColumn(p[0], p[1..], after);
    assert [p[0]] + p[1..] == p;
  }

  /** `ColumnsStep` for a record written as its first character and the rest. */
  lemma ColumnsCons(c: char, tail: string, q: bool)
    requires c != ',' || q
    ensures var rest := Columns(tail, Flip(c, q));
            Columns([c] + tail, q) == [[c] + rest[0]] + rest[1..]
  {
    ColumnsStep([c] + tail, q);
    assert ([c] + tail)[1..] == tail;
  }

  /** Putting a character in front of a first column that starts with `u`. */
  lemma PrefixFirstColumn(c: char, u: string, after: seq<string>)
    requires |after| >= 1
    ensures var rest := [u + after[0]] + after[1..];
            [[c] + rest[0]] + rest[1..] == [[c] + u + after[0]] + after[1..]
  {
    var rest := [u + after[0]] + after[1..];
    assert rest[0] == u + after[0] && rest[1..] == after[1..];
    assert [c] + (u + after[0]) == [c] + u + after[0];
  }

  /** A single column followed by a comma is cut off as one column. */
  lemma ColumnsOfSingle(p: string, rest: string)
    requires SingleColumn(p)
    ensures Columns(p + [','] + rest, false) == [p] + Columns(rest, false)
    ensures Columns(p, false) == [p]
  {
    ColumnsThrough(p, [','] + rest, false);
    assert p + [','] + rest == p + ([','] + rest);
    assert ([','] + rest)[1..] == rest;
    ColumnsThrough(p, [], false);
    assert p + [] == p;
  }

  /** Joining single columns with commas gives a record that reads back as those
      columns. */
  lemma {:induction false} ColumnsOfJoin(parts: seq<string>)
    requires |parts| >= 1
    requires forall k :: 0 <= k < |parts| ==> SingleColumn(parts[k])
    ensures RecordColumns(Join(parts, ',')) == parts
    decreases |parts|
  {
    if |parts| == 1 {
      ColumnsOfSingle(parts[0], "");
    } else {
      ColumnsOfJoin(parts[1..]);
      ColumnsOfSingle(parts[0], Join(parts[1..], ','));
      assert [parts[0]] + parts[1..] == parts;
    }
  }

  /** Text without commas or quotes is one column. */
  lemma PlainIsSingleColumn(s: string)
    requires ',' !in s && '"' !in s
    ensures SingleColumn(s)
  {
    assert Quotes(s) == 0;
  }

  /** A quoted field is one column as long as the field itself has no quotes, even
      when it holds commas. */
  lemma QuotedIsSingleColumn(s: string)
    requires '"' !in s
    ensures SingleColumn(Quoted(s))
  {
    var p := Quoted(s);
    assert Quotes(s) == 0;
    assert Quotes(p) == 2 by {
      assert multiset(p) == multiset("\"") + multiset(s) + multiset("\"");
    }
    forall i | 0 <= i < |p| && p[i] == ',' ensures Quotes(p[..i]) % 2 == 1 {
      assert 1 <= i <= |s|;
      assert p[..i] == "\"" + s[..i - 1];
      assert '"' !in s[..i - 1] by {
        assert forall k :: 0 <= k < i - 1 ==> s[..i - 1][k] == s[k];
      }
      assert Quotes(s[..i - 1]) == 0;
      assert multiset(p[..i]) == multiset("\"") + multiset(s[..i - 1]);
    }
  }

  /** An integer's decimal text is one column and holds no line break. */
  lemma NumberIsPlain(n: int)
    ensures ',' !in IntToString(n) && '"' !in IntToString(n) && '\n' !in IntToString(n)
  {
    var s := IntToString(n);
    forall k | 0 <= k < |s| ensures s[k] != ',' && s[k] != '"' && s[k] != '\n' {
    }
  }
}

=== FILE: export.dfy ===
/** CSV export (src/utils/exportUtils.js): the content of the expense export and
    of the yearly summary, and the export filename. Downloading is left out; the
    date formatter and today's date are parameters. */
module Export {
  import opened Seqs
  import opened Text
  import opened Model
  import opened Query
  import opened Csv
  import opened Grouping

  // ---------------------------------------------------------------------------
  // Expense export

  const CsvHeaderFields: seq<string> := ["Date", "Category", "Description", "Amount (\U{20B9})"]

  /** `headers.join(',')`. */
  const CsvHeader: string := Join(CsvHeaderFields, ',')

  /** The header line, spelled out. */
  lemma CsvHeaderText()
    ensures CsvHeader == "Date" + "," + "Category" + "," + "Description" + "," + "Amount (\U{20B9})"
  {
    JoinFour("Date", "Category", "Description", "Amount (\U{20B9})", ',');
  }

  /** The header reads back as its four column names. */
  lemma CsvHeaderColumns()
    ensures RecordColumns(CsvHeader) == CsvHeaderFields
  {
    HeaderFieldsPlain();
    forall k | 0 <= k < |CsvHeaderFields| ensures SingleColumn(CsvHeaderFields[k]) {
      PlainIsSingleColumn(CsvHeaderFields[k]);
    }
    ColumnsOfJoin(CsvHeaderFields);
  }

  /** Text that holds no comma, quote or line break. */
  predicate Plain(s: string) {
    ',' !in s && '"' !in s && '\n' !in s
  }

  lemma HeaderFieldsPlain()
    ensures forall k :: 0 <= k < |CsvHeaderFields| ==> Plain(CsvHeaderFields[k])
  {
    assert Plain("Date") && Plain("Category") && Plain("Description");
    assert Plain("Amount (\U{20B9})");
  }

  lemma JoinThree(a: string, b: string, c: string, sep: char)
    ensures Join([a, b, c], sep) == a + [sep] + b + [sep] + c
  {
    assert [a, b, c][1..] == [b, c];
    assert [b, c][1..] == [c];
    assert Join([b, c], sep) == b + [sep] + c;
    assert Join([a, b, c], sep) == a + [sep] + (b + [sep] + c);
  }

  lemma JoinFour(a: string, b: string, c: string, d: string, sep: char)
    ensures Join([a, b, c, d], sep) == a + [sep] + b + [sep] + c + [sep] + d
  {
    assert [a, b, c, d][1..] == [b, c, d];
    JoinThree(b, c, d, sep);
    assert Join([a, b, c, d], sep) == a + [sep] + (b + [sep] + c + [sep] + d);
  }

  lemma FourColumns(a: string, b: string, c: string, d: string)
    requires SingleColumn(a) && SingleColumn(b) && SingleColumn(c) && SingleColumn(d)
    ensures RecordColumns(Join([a, b, c, d], ',')) == [a, b, c, d]
  {
    var parts := [a, b, c, d];
    forall k | 0 <= k < 4 ensures SingleColumn(parts[k]) {
      if k == 0 {} else if k == 1 {} else if k == 2 {} else {}
    }
    ColumnsOfJoin(parts);
  }

  lemma FiveColumns(a: string, b: string, c: string, d: string, e: string)
    requires SingleColumn(a) && SingleColumn(b) && SingleColumn(c) && SingleColumn(d) && SingleColumn(e)
    ensures RecordColumns(Join([a, b, c, d, e], ',')) == [a, b, c, d, e]
  {
    var parts := [a, b, c, d, e];
    forall k | 0 <= k < 5 ensures SingleColumn(parts[k]) {
      if k == 0 {} else if k == 1 {} else if k == 2 {} else if k == 3 {} else {}
    }
    ColumnsOfJoin(parts);
  }

  /** The four fields of one expense: the formatted date, the category, the
      description wrapped in double quotes (inner quotes are not doubled), the
      amount. */
  function RowFields(e: Expense, formatDate: Date -> string): (r: seq<string>)
    ensures |r| == 4 && r[0] == formatDate(e.date) && r[1] == e.category
    ensures r[2] == Quoted(e.description) && r[3] == IntToString(e.amount)
  {
    [formatDate(e.date), e.category, Quoted(e.description), IntToString(e.amount)]
  }

  /** One data line of the export. Without line breaks in its fields it is a
      single line. When the date text and the category hold no comma or quote and
      the description holds no quote, it reads back as its four fields, and a
      comma inside the description stays in its column. */
  function Row(e: Expense, formatDate: Date -> string): (r: string)
    ensures SingleLine(e, formatDate) ==> '\n' !in r
    ensures ColumnSafe(e, formatDate) ==> RecordColumns(r) == RowFields(e, formatDate)
  {
    RowFieldsSingleLine(e, formatDate);
    RowFieldsColumns(e, formatDate);
    Join(RowFields(e, formatDate), ',')
  }

  function RowOf(formatDate: Date -> string): Expense -> string {
    (e: Expense) => Row(e, formatDate)
  }

  /** `exportToCSV`'s content: nothing for an empty list, otherwise the header
      and one line per expense, in input order, joined by line breaks. */
  function ExportCsv(es: seq<Expense>, formatDate: Date -> string): (r: Option<string>)
    ensures r.None? <==> es == []
    ensures r.Some? ==> CsvHeader <= r.value
  {
    if es == [] then None
    else
      var lines := [CsvHeader] + Map(es, RowOf(formatDate));
      assert lines == [lines[0]] + lines[1..];
      Some(Join(lines, '\n'))
  }

  /** No field of the record holds a line break. */
  predicate SingleLine(e: Expense, formatDate: Date -> string) {
    '\n' !in formatDate(e.date) && '\n' !in e.category && '\n' !in e.description
  }

  /** When no field holds a line break, splitting the content at line breaks gives
      the header followed by one row per expense: `n + 1` lines. */
  lemma ExportLines(es: seq<Expense>, formatDate: Date -> string)
    requires es != []
    requires forall e :: e in es ==> SingleLine(e, formatDate)
    ensures var lines := Split(ExportCsv(es, formatDate).value, '\n');
            && |lines| == |es| + 1
            && lines[0] == CsvHeader
            && forall i :: 0 <= i < |es| ==> lines[i + 1] == Row(es[i], formatDate)
  {
    var lines := [CsvHeader] + Map(es, RowOf(formatDate));
    forall k | 0 <= k < |lines| ensures '\n' !in lines[k] {
      if k > 0 {
        assert es[k - 1] in es;
        assert lines[k] == Row(es[k - 1], formatDate);
      } else {
        HeaderSingleLine();
      }
    }
    SplitJoin(lines, '\n');
  }

  lemma HeaderSingleLine()
    ensures '\n' !in CsvHeader
  {
    HeaderFieldsPlain();
    JoinWithout(CsvHeaderFields, ',', '\n');
  }

  lemma RowFieldsSingleLine(e: Expense, formatDate: Date -> string)
    ensures SingleLine(e, formatDate) ==> '\n' !in Join(RowFields(e, formatDate), ',')
  {
    if SingleLine(e, formatDate) {
      NumberIsPlain(e.amount);
      assert '\n' !in Quoted(e.description);
      JoinWithout(RowFields(e, formatDate), ',', '\n');
    }
  }

  /** No quote or bare comma in the fields that are written unquoted. */
  predicate ColumnSafe(e: Expense, formatDate: Date -> string) {
    && ',' !in formatDate(e.date) && '"' !in formatDate(e.date)
    && ',' !in e.category && '"' !in e.category
    && '"' !in e.description
  }

  lemma RowFieldsColumns(e: Expense, formatDate: Date -> string)
    ensures ColumnSafe(e, formatDate) ==> RecordColumns(Join(RowFields(e, formatDate), ',')) == RowFields(e, formatDate)
  {
    if ColumnSafe(e, formatDate) {
      PlainIsSingleColumn(formatDate(e.date));
      PlainIsSingleColumn(e.category);
      QuotedIsSingleColumn(e.description);
      NumberIsPlain(e.amount);
      PlainIsSingleColumn(IntToString(e.amount));
      FourColumns(formatDate(e.date), e.category, Quoted(e.description), IntToString(e.amount));
    }
  }

  // ---------------------------------------------------------------------------
  // The display date in the Date column

  /** `formatDate`'s pattern `MMM dd, yyyy`: month abbreviation, two-digit day,
      comma, year. */
  function DisplayDate(d: Date): string {
    DisplayDay(d) + "," + DisplayYear(d)
  }

  /** The part before the comma: `MMM dd`. */
  function DisplayDay(d: Date): string {
    MonthAbbreviations[d.month] + " " + PadTwo(IntToString(d.day))
  }

  /** The part after the comma: a space and the year. */
  function DisplayYear(d: Date): string {
    " " + IntToString(d.year)
  }

  lemma DisplayPartsPlain(d: Date)
    ensures Plain(DisplayDay(d)) && Plain(DisplayYear(d))
  {
    AbbreviationPlain(d.month);
    PaddedDayPlain(d.day);
    NumberIsPlain(d.year);
  }

  lemma PaddedDayPlain(n: int)
    ensures Plain(PadTwo(IntToString(n)))
  {
    var digits := IntToString(n);
    NumberIsPlain(n);
    if |digits| == 1 {
      assert PadTwo(digits) == "0" + digits;
    }
  }

  /** The display date holds no quote. */
  lemma DisplayDateHasNoQuote(d: Date)
    ensures '"' !in DisplayDate(d)
  {
    DisplayPartsPlain(d);
  }

  /** As written, the Date column is not quoted, so with the `MMM dd, yyyy` format
      the comma inside the date starts a new column: every row reads as five
      columns under a four-column header, and the category lands under
      "Description". */
  lemma RowWithDisplayDateHasFiveColumns(e: Expense)
    requires ',' !in e.category && '"' !in e.category && '"' !in e.description
    ensures RecordColumns(Row(e, DisplayDate)) ==
              [DisplayDay(e.date), DisplayYear(e.date), e.category, Quoted(e.description), IntToString(e.amount)]
    ensures |RecordColumns(Row(e, DisplayDate))| == |CsvHeaderFields| + 1
  {
    DisplayPartsPlain(e.date);
    PlainIsSingleColumn(DisplayDay(e.date));
    PlainIsSingleColumn(DisplayYear(e.date));
    PlainIsSingleColumn(e.category);
    QuotedIsSingleColumn(e.description);
    NumberIsPlain(e.amount);
    PlainIsSingleColumn(IntToString(e.amount));
    FiveColumns(DisplayDay(e.date), DisplayYear(e.date), e.category, Quoted(e.description), IntToString(e.amount));
    RowSplitsDate(e);
  }

  /** Joining the two halves of the display date as separate fields gives the row. */
  lemma RowSplitsDate(e: Expense)
    ensures Join([DisplayDay(e.date), DisplayYear(e.date), e.category, Quoted(e.description), IntToString(e.amount)], ',')
            == Row(e, DisplayDate)
  {
    var day, year, rest := DisplayDay(e.date), DisplayYear(e.date), Join([e.category, Quoted(e.description), IntToString(e.amount)], ',');
    var parts := [day, year, e.category, Quoted(e.description), IntToString(e.amount)];
    assert parts[1..] == [year, e.category, Quoted(e.description), IntToString(e.amount)];
    assert parts[1..][1..] == [e.category, Quoted(e.description), IntToString(e.amount)];
    var fields := RowFields(e, DisplayDate);
    assert fields[1..] == [e.category, Quoted(e.description), IntToString(e.amount)];
    assert Join(parts, ',') == day + [','] + (year + [','] + rest);
    assert Join(fields, ',') == (day + "," + year) + [','] + rest;
  }

  /** A row whose date is quoted like its description. */
  function QuotedDateRowFields(e: Expense, formatDate: Date -> string): seq<string> {
    [Quoted(formatDate(e.date)), e.category, Quoted(e.description), IntToString(e.amount)]
  }

  function QuotedDateRow(e: Expense, formatDate: Date -> string): string {
    Join(QuotedDateRowFields(e, formatDate), ',')
  }

  /** With the date quoted, a row with the `MMM dd, yyyy` format reads back as the
      four header columns. */
  lemma QuotedDateRowHasFourColumns(e: Expense)
    requires ',' !in e.category && '"' !in e.category && '"' !in e.description
    ensures RecordColumns(QuotedDateRow(e, DisplayDate)) == QuotedDateRowFields(e, DisplayDate)
    ensures |RecordColumns(QuotedDateRow(e, DisplayDate))| == |CsvHeaderFields|
  {
    DisplayDateHasNoQuote(e.date);
    QuotedIsSingleColumn(DisplayDate(e.date));
    PlainIsSingleColumn(e.category);
    QuotedIsSingleColumn(e.description);
    NumberIsPlain(e.amount);
    PlainIsSingleColumn(IntToString(e.amount));
    FourColumns(Quoted(DisplayDate(e.date)), e.category, Quoted(e.description), IntToString(e.amount));
  }

  // ---------------------------------------------------------------------------
  // Filename

  datatype DateRange = DateRange(start: string, end: string)

  /** The export options; an absent or zero month or year is falsy. */
  datatype ExportOptions = ExportOptions(dateRange: Option<DateRange>, month: Option<int>, year: Option<int>)

  /** JavaScript truthiness of an optional number. */
  predicate Truthy(n: Option<int>) {
    n.Some? && n.value != 0
  }

  /** `generateFilename`: a date range first, then month and year, then the year
      alone, then today's date (`YYYY-MM-DD`). */
  function Filename(o: ExportOptions, today: string): (r: string)
    ensures "expenses_" <= r
    ensures |r| >= 13 && r[|r| - 4..] == ".csv"
    ensures o.dateRange.Some? ==>
              r == "expenses_" + o.dateRange.value.start + "_to_" + o.dateRange.value.end + ".csv"
    ensures o.dateRange.None? && Truthy(o.month) && Truthy(o.year) ==>
              r == "expenses_" + IntToString(o.year.value) + "_" + PadTwo(IntToString(o.month.value)) + ".csv"
    ensures o.dateRange.None? && !Truthy(o.month) && Truthy(o.year) ==>
              r == "expenses_" + IntToString(o.year.value) + ".csv"
    ensures o.dateRange.None? && !Truthy(o.year) ==> r == "expenses_" + today + ".csv"
  {
    var stem :=
      if o.dateRange.Some? then o.dateRange.value.start + "_to_" + o.dateRange.value.end
      else if Truthy(o.month) && Truthy(o.year) then
        IntToString(o.year.value) + "_" + PadTwo(IntToString(o.month.value))
      else if Truthy(o.year) then IntToString(o.year.value)
      else today;
    var r := "expenses_" + stem + ".csv";
    assert r[|r| - 4..] == ".csv";
    r
  }

  /** A date range decides the name whatever the month and year. */
  lemma DateRangeFirst(o: ExportOptions, today: string)
    requires o.dateRange.Some?
    ensures Filename(o, today) == Filename(ExportOptions(o.dateRange, None, None), today)
  {
  }

  /** A month of 0 is falsy, so the name falls back to the year alone. */
  lemma MonthZeroFallsThrough(y: int, today: string)
    requires y != 0
    ensures Filename(ExportOptions(None, Some(0), Some(y)), today) == "expenses_" + IntToString(y) + ".csv"
  {
  }

  /** Without a range and with an absent or zero year, the name is today's date,
      whatever the month. */
  lemma TodayLast(m: Option<int>, y: Option<int>, today: string)
    requires y.None? || y.value == 0
    ensures Filename(ExportOptions(None, m, y), today) == "expenses_" + today + ".csv"
  {
  }

  /** A month from 1 to 12 with a non-zero year gives `expenses_{year}_{MM}.csv`,
      where `MM` are the two digits the month keys `YYYY-MM` use for that month. */
  lemma MonthlyFilename(m: MonthIndex, y: int, today: string)
    requires y != 0
    ensures Filename(ExportOptions(None, Some(m + 1), Some(y)), today)
            == "expenses_" + IntToString(y) + "_" + MonthDigits(m) + ".csv"
  {
  }

  // ---------------------------------------------------------------------------
  // Yearly summary

  const SummaryHeaderFields: seq<string> := ["Month", "Total Expenses (\U{20B9})", "Number of Transactions"]

  const SummaryHeader: string := Join(SummaryHeaderFields, ',')

  lemma SummaryHeaderText()
    ensures SummaryHeader == "Month" + "," + "Total Expenses (\U{20B9})" + "," + "Number of Transactions"
  {
    JoinThree("Month", "Total Expenses (\U{20B9})", "Number of Transactions", ',');
  }

  function SummaryRowFields(b: MonthlyBucket): seq<string> {
    [b.name, IntToString(b.total), IntToString(b.count)]
  }

  function SummaryRow(b: MonthlyBucket): string {
    Join(SummaryRowFields(b), ',')
  }

  /** `exportYearlySummary`'s content: the header and one `name,total,count` line
      per bucket, joined by line breaks. */
  function YearlySummaryCsv(bs: seq<MonthlyBucket>): (r: string)
    ensures SummaryHeader <= r
  {
    var lines := [SummaryHeader] + Map(bs, SummaryRow);
    assert lines == [lines[0]] + lines[1..];
    Join(lines, '\n')
  }

  /** `yearly_summary_{year}.csv`. */
  function YearlySummaryFilename(year: int): (r: string)
    ensures |r| == |IntToString(year)| + 19
    ensures "yearly_summary_" <= r && r[|r| - 4..] == ".csv"
    ensures r[15..|r| - 4] == IntToString(year)
  {
    "yearly_summary_" + IntToString(year) + ".csv"
  }

  lemma AbbreviationPlain(m: MonthIndex)
    ensures Plain(MonthAbbreviations[m])
  {
    assert MonthAbbreviations[m] in MonthAbbreviations;
  }

  lemma SummaryHeaderSingleLine()
    ensures '\n' !in SummaryHeader
  {
    assert Plain("Month") && Plain("Total Expenses (\U{20B9})") && Plain("Number of Transactions");
    assert forall k :: 0 <= k < |SummaryHeaderFields| ==> '\n' !in SummaryHeaderFields[k];
    JoinWithout(SummaryHeaderFields, ',', '\n');
  }

  /** A bucket with a plain name gives one line that reads back as its name, total
      and count. */
  lemma SummaryRowColumns(b: MonthlyBucket)
    requires Plain(b.name)
    ensures '\n' !in SummaryRow(b)
    ensures RecordColumns(SummaryRow(b)) == [b.name, IntToString(b.total), IntToString(b.count)]
  {
    var fields := SummaryRowFields(b);
    NumberIsPlain(b.total);
    NumberIsPlain(b.count);
    JoinWithout(fields, ',', '\n');
    PlainIsSingleColumn(b.name);
    PlainIsSingleColumn(IntToString(b.total));
    PlainIsSingleColumn(IntToString(b.count));
    ColumnsOfJoin(fields);
  }

  /** For buckets with plain names, the summary splits into the header and one line
      per bucket, each reading back as the bucket's name, total and count. */
  lemma SummaryLines(bs: seq<MonthlyBucket>)
    requires forall i :: 0 <= i < |bs| ==> Plain(bs[i].name)
    ensures var lines := Split(YearlySummaryCsv(bs), '\n');
            && |lines| == |bs| + 1
            && lines[0] == SummaryHeader
            && forall i :: 0 <= i < |bs| ==>
                 RecordColumns(lines[i + 1]) == [bs[i].name, IntToString(bs[i].total), IntToString(bs[i].count)]
  {
    var lines := [SummaryHeader] + Map(bs, SummaryRow);
    forall k | 0 <= k < |lines| ensures '\n' !in lines[k] {
      if k > 0 {
        assert lines[k] == SummaryRow(bs[k - 1]);
        SummaryRowColumns(bs[k - 1]);
      } else {
        SummaryHeaderSingleLine();
      }
    }
    SplitJoin(lines, '\n');
    forall i | 0 <= i < |bs|
      ensures RecordColumns(lines[i + 1]) == [bs[i].name, IntToString(bs[i].total), IntToString(bs[i].count)]
    {
      SummaryRowColumns(bs[i]);
    }
  }

  /** The summary of a year's twelve buckets has thirteen lines; line `i + 1` reads
      back as month `i`'s abbreviation, total and count. */
  lemma YearlySummaryLines(es: seq<Expense>, y: int)
    ensures var bs := MonthlyTotals(es, y);
            var lines := Split(YearlySummaryCsv(bs), '\n');
            && |lines| == 13
            && lines[0] == SummaryHeader
            && forall i :: 0 <= i < 12 ==>
                 RecordColumns(lines[i + 1]) == [MonthAbbreviations[i], IntToString(bs[i].total), IntToString(bs[i].count)]
  {
    var bs := MonthlyTotals(es, y);
    forall i | 0 <= i < |bs| ensures Plain(bs[i].name) {
      AbbreviationPlain(i);
    }
    SummaryLines(bs);
  }
}

=== FILE: filterpanel.dfy ===
/** Editing the filter criteria (src/components/FilterPanel.jsx): the category
    toggle, the date and search handlers, and the count of criteria in force. A
    cleared date input (the empty string in the source) is `None`. */
module FilterPanel {
  import opened Seqs
  import opened Text
  import opened Model
  import opened Query

  function IsNot(id: string): string -> bool {
    (c: string) => c != id
  }

  /** `handleCategoryToggle`: remove every occurrence of a selected category, or
      append an unselected one at the end. Nothing but the category list changes. */
  function ToggleCategory(f: Criteria, id: string): (r: Criteria)
    ensures r == f.(categories := r.categories)
    ensures id in f.categories ==> r.categories == Filter(f.categories, IsNot(id))
    ensures id !in f.categories ==> r.categories == f.categories + [id]
    ensures forall c :: c in r.categories <==> (c in f.categories <==> c != id)
  {
    if id in f.categories then f.(categories := Filter(f.categories, IsNot(id)))
    else f.(categories := f.categories + [id])
  }

  /** Toggling an unselected category twice gives the criteria back. */
  lemma ToggleTwiceRestores(f: Criteria, id: string)
    requires id !in f.categories
    ensures ToggleCategory(ToggleCategory(f, id), id) == f
  {
    var once := ToggleCategory(f, id);
    FilterAppend(f.categories, [id], IsNot(id));
    assert Filter([id], IsNot(id)) == [];
    FilterKeepsAll(f.categories, IsNot(id));
  }

  /** Toggling a selected category leaves it unselected however often it was listed,
      and keeps the others in order. */
  lemma ToggleRemovesEveryOccurrence(f: Criteria, id: string)
    requires id in f.categories
    ensures id !in ToggleCategory(f, id).categories
    ensures IsSubseq(ToggleCategory(f, id).categories, f.categories)
  {
    FilterIsSubseq(f.categories, IsNot(id));
  }

  datatype DateField = StartDate | EndDate

  /** `handleDateChange`: set the named date bound and nothing else. */
  function ChangeDate(f: Criteria, field: DateField, value: Option<Date>): (r: Criteria)
    ensures field == StartDate ==> r.startDate == value && r.endDate == f.endDate
    ensures field == EndDate ==> r.endDate == value && r.startDate == f.startDate
    ensures r.categories == f.categories && r.searchTerm == f.searchTerm
  {
    match field
    case StartDate => f.(startDate := value)
    case EndDate => f.(endDate := value)
  }

  /** `handleSearchChange`: set the search term and nothing else. */
  function ChangeSearch(f: Criteria, value: string): (r: Criteria)
    ensures r.searchTerm == value
    ensures r.categories == f.categories && r.startDate == f.startDate && r.endDate == f.endDate
  {
    f.(searchTerm := value)
  }

  /** 1 when the condition holds, else 0. */
  function Indicator(b: bool): nat { if b then 1 else 0 }

  /** `activeFilterCount`: one for each of a non-empty category list, a start
      date, an end date and a non-empty search term. */
  function ActiveFilterCount(f: Criteria): (r: nat)
    ensures r <= 4
    ensures r == 0 <==> f == NoCriteria
    ensures r == 4 <==> |f.categories| > 0 && f.startDate.Some? && f.endDate.Some? && |f.searchTerm| > 0
  {
    Indicator(|f.categories| > 0) + Indicator(f.startDate.Some?)
      + Indicator(f.endDate.Some?) + Indicator(|f.searchTerm| > 0)
  }

  /** Typing a search term moves the count by exactly the change in whether a
      term is set; nothing else counts differently. */
  lemma CountFollowsSearch(f: Criteria, v: string)
    ensures ActiveFilterCount(ChangeSearch(f, v))
            == ActiveFilterCount(f) - Indicator(|f.searchTerm| > 0) + Indicator(|v| > 0)
  {
  }

  /** Setting or clearing a date bound moves the count by exactly the change in
      whether that bound is set. */
  lemma CountFollowsDate(f: Criteria, field: DateField, value: Option<Date>)
    ensures var before := if field == StartDate then f.startDate else f.endDate;
            ActiveFilterCount(ChangeDate(f, field, value))
            == ActiveFilterCount(f) - Indicator(before.Some?) + Indicator(value.Some?)
  {
  }

  lemma EmptyWithoutMembers<T>(s: seq<T>)
    ensures (forall x :: x !in s) ==> s == []
  {
    if s != [] {
      assert s[0] in s;
    }
  }

  /** Selecting a category makes the category criterion count; unselecting one
      keeps it counting exactly when another category stays selected. */
  lemma CountFollowsToggle(f: Criteria, id: string)
    ensures id !in f.categories ==>
              ActiveFilterCount(ToggleCategory(f, id)) == ActiveFilterCount(f) - Indicator(|f.categories| > 0) + 1
    ensures id in f.categories ==>
              ActiveFilterCount(ToggleCategory(f, id))
              == ActiveFilterCount(f) - 1 + Indicator(exists c :: c in f.categories && c != id)
  {
    var r := ToggleCategory(f, id);
    if id in f.categories {
      if exists c :: c in f.categories && c != id {
        var c :| c in f.categories && c != id;
        assert c in r.categories;
      } else {
        EmptyWithoutMembers(r.categories);
      }
    } else {
      assert id in r.categories;
    }
  }

  /** The "Clear All Filters" button is shown when some criterion is in force,
      that is exactly when the criteria differ from the cleared ones. */
  function ShowClearButton(f: Criteria): (r: bool)
    ensures r <==> f != NoCriteria
  {
    ActiveFilterCount(f) > 0
  }

  /** A whitespace-only search term counts as a criterion and shows the button, yet
      the filter ignores it. */
  lemma BlankSearchCountsButIsIgnored(es: seq<Expense>, term: string)
    requires |term| > 0 && IsBlank(term)
    ensures ActiveFilterCount(NoCriteria.(searchTerm := term)) == 1
    ensures ShowClearButton(NoCriteria.(searchTerm := term))
    ensures FilterExpenses(es, NoCriteria.(searchTerm := term)) == es
  {
    BlankSearchIgnored(es, NoCriteria.(searchTerm := term));
    FilterExpensesNoCriteria(es);
    assert NoCriteria.(searchTerm := term).(searchTerm := "") == NoCriteria;
  }
}

=== FILE: form.dfy ===
/** The new-expense form (src/components/ExpenseForm.jsx): its fields, the edits
    to them, and what a submission does. The amount input is a number input, so
    its value is either empty (`None`) or a number; today's date comes from the
    clock and is a parameter. */
module Form {
  import opened Text
  import opened Model

  datatype FormData = FormData(amount: Option<int>, category: string, description: string, date: Date)

  /** What the form hands to the application: the field values, with the amount
      parsed. */
  datatype Draft = Draft(amount: int, category: string, description: string, date: Date)

  datatype FormError = InvalidAmount | MissingDescription

  /** A submission is rejected with an alert, or hands a draft over and resets the
      form. */
  datatype Outcome = Rejected(error: FormError) | Submitted(draft: Draft, next: FormData)

  /** `categories[0]?.id || 'food'`: the first category's id unless there is none
      or it is empty. */
  function DefaultCategory(cats: seq<Category>): (r: string)
    ensures r != ""
    ensures cats != [] && cats[0].id != "" ==> r == cats[0].id
    ensures cats == [] || cats[0].id == "" ==> r == "food"
  {
    if cats != [] && cats[0].id != "" then cats[0].id else "food"
  }

  /** The form reset after each submission, with the loaded catalog. The form as
      first shown is `EmptyForm([], today)`: the catalog is still empty at the first
      render, before the mount effect loads it, so its category is `food`. */
  function EmptyForm(cats: seq<Category>, today: Date): (r: FormData)
    ensures r.amount.None? && r.description == "" && r.date == today
    ensures r.category == DefaultCategory(cats)
  {
    FormData(None, DefaultCategory(cats), "", today)
  }

  /** The amount check: an empty amount or one at or below zero is invalid. */
  predicate AmountValid(f: FormData) {
    f.amount.Some? && f.amount.value > 0
  }

  /** `handleSubmit`'s checks, in order: the amount first, then a description that
      is more than whitespace. */
  function Validate(f: FormData): (r: Option<FormError>)
    ensures r == Some(InvalidAmount) <==> !AmountValid(f)
    ensures r == Some(MissingDescription) <==> AmountValid(f) && IsBlank(f.description)
    ensures r == None <==> AmountValid(f) && !IsBlank(f.description)
  {
    if f.amount.None? || f.amount.value <= 0 then Some(InvalidAmount)
    else if IsBlank(f.description) then Some(MissingDescription)
    else None
  }

  /** `handleSubmit`: a valid form hands over its values, the description as typed,
      and resets to the empty form; an invalid one is rejected and left as it is. */
  function Submit(f: FormData, cats: seq<Category>, today: Date): (r: Outcome)
    ensures r.Rejected? <==> Validate(f).Some?
    ensures r.Rejected? ==> r.error == Validate(f).value
    ensures r.Submitted? ==>
              && r.draft.amount > 0
              && Some(r.draft.amount) == f.amount
              && r.draft.category == f.category
              && r.draft.description == f.description
              && !IsBlank(r.draft.description)
              && r.draft.date == f.date
              && r.next == EmptyForm(cats, today)
  {
    match Validate(f)
    case Some(err) => Rejected(err)
    case None => Submitted(Draft(f.amount.value, f.category, f.description, f.date), EmptyForm(cats, today))
  }

  /** The value a form control reports, keyed by the control's name. */
  datatype Change =
    | SetAmount(amount: Option<int>)
    | SetCategory(category: string)
    | SetDescription(description: string)
    | SetDate(date: Date)

  /** `handleChange`: set the named field and keep the others. */
  function HandleChange(f: FormData, c: Change): (r: FormData)
    ensures c.SetAmount? ==> r.amount == c.amount && r == f.(amount := r.amount)
    ensures c.SetCategory? ==> r.category == c.category && r == f.(category := r.category)
    ensures c.SetDescription? ==> r.description == c.description && r == f.(description := r.description)
    ensures c.SetDate? ==> r.date == c.date && r == f.(date := r.date)
  {
    match c
    case SetAmount(a) => f.(amount := a)
    case SetCategory(cat) => f.(category := cat)
    case SetDescription(d) => f.(description := d)
    case SetDate(d) => f.(date := d)
  }

  /** The field a change is addressed to. */
  function FieldOf(c: Change): nat {
    match c
    case SetAmount(_) => 0
    case SetCategory(_) => 1
    case SetDescription(_) => 2
    case SetDate(_) => 3
  }

  /** Edits to different fields can be made in either order. */
  lemma ChangesCommute(f: FormData, c: Change, d: Change)
    requires FieldOf(c) != FieldOf(d)
    ensures HandleChange(HandleChange(f, c), d) == HandleChange(HandleChange(f, d), c)
  {
  }

  /** A second edit to the same field overrides the first. */
  lemma LastChangeWins(f: FormData, c: Change, d: Change)
    requires FieldOf(c) == FieldOf(d)
    ensures HandleChange(HandleChange(f, c), d) == HandleChange(f, d)
  {
  }

  /** Right after a submission the reset form is rejected for its empty amount, so
      pressing submit again hands nothing over. */
  lemma NoDoubleSubmit(f: FormData, cats: seq<Category>, today: Date)
    requires Submit(f, cats, today).Submitted?
    ensures Submit(Submit(f, cats, today).next, cats, today) == Rejected(InvalidAmount)
  {
  }

  /** The amount is checked before the description: with both missing, the alert
      is about the amount. */
  lemma AmountCheckedFirst(cats: seq<Category>, today: Date)
    ensures Submit(EmptyForm(cats, today), cats, today) == Rejected(InvalidAmount)
  {
  }

  /** Entering a positive amount and a description into the empty form and
      submitting hands over exactly what was entered, the untrimmed description
      included, on the default category and today's date. */
  lemma FillAndSubmit(cats: seq<Category>, today: Date, amount: int, description: string)
    requires amount > 0 && !IsBlank(description)
    ensures var f := HandleChange(HandleChange(EmptyForm(cats, today), SetAmount(Some(amount))), SetDescription(description));
            Submit(f, cats, today) == Submitted(Draft(amount, DefaultCategory(cats), description, today), EmptyForm(cats, today))
  {
  }
}

=== FILE: grouping.dfy ===
/** Grouping of records by a key (src/utils/helpers.js `groupByCategory`,
    `groupByMonth`, `getCategoryTotals`).

    The source reduces into a plain object. A group list here is that object,
    its entries in key order, under two assumptions about the keys. A key must not
    look like an integer, because the object lists such keys first, in numeric
    order; otherwise its order is that of first appearance. A key must also not
    name a property of `Object.prototype` (`constructor`, `toString`,
    `__proto__`, ...), because the object inherits such a property and the
    source's `push` onto it throws. */
module Grouping {
  import opened Seqs
  import opened Text
  import opened Model
  import opened Query

  datatype Group<K> = Group(key: K, items: seq<Expense>)

  function KeyOfGroup<K>(g: Group<K>): K { g.key }

  function Keys<K>(gs: seq<Group<K>>): seq<K> { Map(gs, KeyOfGroup) }

  /** Position of the group with key `k`, or `|gs|` when there is none. */
  function IndexOfKey<K(==)>(gs: seq<Group<K>>, k: K): (i: nat)
    ensures i <= |gs|
    ensures i < |gs| ==> gs[i].key == k
    ensures forall j :: 0 <= j < i ==> gs[j].key != k
  {
    if gs == [] || gs[0].key == k then 0 else 1 + IndexOfKey(gs[1..], k)
  }

  /** One step of the reduce: push `e` onto the group for key `k`, opening that
      group at the end when it does not exist yet. */
  function AddToGroup<K(==)>(gs: seq<Group<K>>, k: K, e: Expense): seq<Group<K>> {
    var i := IndexOfKey(gs, k);
    if i < |gs| then gs[i := Group(k, gs[i].items + [e])] else gs + [Group(k, [e])]
  }

  /** Adding to an existing key keeps the key list; a new key goes at the end. */
  lemma AddToGroupKeys<K>(gs: seq<Group<K>>, k: K, e: Expense)
    ensures Keys(AddToGroup(gs, k, e)) == if k in Keys(gs) then Keys(gs) else Keys(gs) + [k]
  {
    var i := IndexOfKey(gs, k);
    if i < |gs| {
      assert Keys(gs)[i] == k;
    }
  }

  /** The key order of a reduce over `init + [e]` extends the one over `init`. */
  lemma DedupMapStep<K(!new)>(init: seq<Expense>, e: Expense, f: Expense -> K)
    ensures Dedup(Map(init + [e], f)) ==
      if f(e) in Dedup(Map(init, f)) then Dedup(Map(init, f)) else Dedup(Map(init, f)) + [f(e)]
  {
    var es := init + [e];
    assert Map(es, f)[..|es| - 1] == Map(init, f);
  }

  /** One reduce step keeps every group equal to the records with its key. */
  lemma AddToGroupItems<K(!new)>(gs: seq<Group<K>>, init: seq<Expense>, e: Expense, f: Expense -> K)
    requires Keys(gs) == Dedup(Map(init, f))
    requires forall i :: 0 <= i < |gs| ==> gs[i].items == Filter(init, KeyIs(f, gs[i].key))
    ensures forall i :: 0 <= i < |AddToGroup(gs, f(e), e)| ==>
      AddToGroup(gs, f(e), e)[i].items == Filter(init + [e], KeyIs(f, AddToGroup(gs, f(e), e)[i].key))
  {
    var r := AddToGroup(gs, f(e), e);
    var idx := IndexOfKey(gs, f(e));
    forall j | 0 <= j < |r| ensures r[j].items == Filter(init + [e], KeyIs(f, r[j].key)) {
      FilterAppend(init, [e], KeyIs(f, r[j].key));
      if j == |gs| {
        assert r[j].key == f(e);
        assert f(e) !in Keys(gs);
        assert f(e) !in Map(init, f);
        forall x | x in init ensures f(x) != f(e) {
          var k :| 0 <= k < |init| && init[k] == x;
          assert Map(init, f)[k] == f(x);
        }
        FilterKeepsNone(init, KeyIs(f, f(e)));
      }
    }
  }

  /** The reduce over the records, left to right. Keys come in order of first
      appearance, once each, and the group for key `k` holds exactly the records
      with that key, in input order. */
  function GroupBy<K(==,!new)>(es: seq<Expense>, f: Expense -> K): (gs: seq<Group<K>>)
    ensures Keys(gs) == Dedup(Map(es, f))
    ensures forall i :: 0 <= i < |gs| ==> gs[i].items == Filter(es, KeyIs(f, gs[i].key))
    decreases |es|
  {
    if es == [] then []
    else
      var init := es[..|es| - 1];
      var e := es[|es| - 1];
      assert es == init + [e];
      var gs := GroupBy(init, f);
      AddToGroupKeys(gs, f(e), e);
      DedupMapStep(init, e, f);
      AddToGroupItems(gs, init, e, f);
      AddToGroup(gs, f(e), e)
  }

  /** Every record lies in exactly one group, the one for its key; the group sizes
      add up to the number of records. */
  lemma GroupByPartitions<K(!new)>(es: seq<Expense>, f: Expense -> K)
    ensures forall e :: e in es ==>
      exists i :: 0 <= i < |GroupBy(es, f)| && e in GroupBy(es, f)[i].items
    ensures forall i, e :: 0 <= i < |GroupBy(es, f)| && e in GroupBy(es, f)[i].items ==>
      e in es && f(e) == GroupBy(es, f)[i].key
    ensures forall i, j, e ::
              (0 <= i < |GroupBy(es, f)| && 0 <= j < |GroupBy(es, f)|
               && e in GroupBy(es, f)[i].items && e in GroupBy(es, f)[j].items) ==> i == j
    ensures Sum(GroupBy(es, f), GroupSize) == |es|
  {
    var gs := GroupBy(es, f);
    var ks := Keys(gs);
    forall e | e in es ensures exists i :: 0 <= i < |gs| && e in gs[i].items {
      assert f(e) in Map(es, f) by {
        var k :| 0 <= k < |es| && es[k] == e;
        assert Map(es, f)[k] == f(e);
      }
      assert f(e) in ks;
      var i :| 0 <= i < |ks| && ks[i] == f(e);
      assert e in gs[i].items;
    }
    forall i, j, e | 0 <= i < |gs| && 0 <= j < |gs| && e in gs[i].items && e in gs[j].items
      ensures i == j
    {
      assert ks[i] == f(e) == ks[j];
    }
    GroupWeightsConserve(es, f, One);
    GroupSizesAreCounts(gs);
    SumOfOnes(es);
  }

  function GroupSize<K>(g: Group<K>): int { |g.items| }

  function GroupWeight<K>(w: Expense -> int): Group<K> -> int {
    (g: Group<K>) => Sum(g.items, w)
  }

  lemma {:induction false} GroupSizesAreCounts<K>(gs: seq<Group<K>>)
    ensures Sum(gs, GroupSize) == Sum(gs, GroupWeight(One))
    decreases |gs|
  {
    if gs != [] {
      GroupSizesAreCounts(gs[1..]);
      SumOfOnes(gs[0].items);
    }
  }

  lemma {:induction false} GroupWeightsByKey<K(!new)>(
    gs: seq<Group<K>>, es: seq<Expense>, f: Expense -> K, w: Expense -> int)
    requires forall i :: 0 <= i < |gs| ==> gs[i].items == Filter(es, KeyIs(f, gs[i].key))
    ensures Sum(gs, GroupWeight(w)) == SumByKey(Keys(gs), es, f, w)
    decreases |gs|
  {
    if gs != [] {
      GroupWeightsByKey(gs[1..], es, f, w);
      assert Keys(gs)[1..] == Keys(gs[1..]);
    }
  }

  /** Any per-record weight summed group by group gives the weight of all records. */
  lemma GroupWeightsConserve<K(!new)>(es: seq<Expense>, f: Expense -> K, w: Expense -> int)
    ensures Sum(GroupBy(es, f), GroupWeight(w)) == Sum(es, w)
  {
    var gs := GroupBy(es, f);
    GroupWeightsByKey(gs, es, f, w);
    forall e | e in es ensures f(e) in Keys(gs) {
      var k :| 0 <= k < |es| && es[k] == e;
      assert Map(es, f)[k] == f(e);
    }
    PartitionSum(Keys(gs), es, f, w);
  }

  // ---------------------------------------------------------------------------
  // By category

  /** `groupByCategory`: one group per distinct category, in order of first
      appearance, holding exactly that category's records. */
  function GroupByCategory(es: seq<Expense>): (r: seq<Group<string>>)
    ensures Keys(r) == Dedup(Map(es, CategoryOf))
    ensures forall i, e :: 0 <= i < |r| ==> (e in r[i].items <==> e in es && e.category == r[i].key)
  {
    GroupBy(es, CategoryOf)
  }

  function ToCategoryTotal(g: Group<string>): CategoryTotal {
    CategoryTotal(g.key, Total(g.items), |g.items|)
  }

  function CategoryOfTotal(c: CategoryTotal): string { c.category }
  function TotalOfEntry(c: CategoryTotal): int { c.total }
  function CountOfEntry(c: CategoryTotal): int { c.count }

  /** `getCategoryTotals`: one entry per distinct category, in order of first
      appearance, with the total and the number of that category's records. */
  function CategoryTotals(es: seq<Expense>): (r: seq<CategoryTotal>)
    ensures Map(r, CategoryOfTotal) == Dedup(Map(es, CategoryOf))
    ensures forall i :: 0 <= i < |r| ==>
      && r[i].total == Total(Filter(es, KeyIs(CategoryOf, r[i].category)))
      && r[i].count == |Filter(es, KeyIs(CategoryOf, r[i].category))|
  {
    var gs := GroupByCategory(es);
    var r := Map(gs, ToCategoryTotal);
    assert Map(r, CategoryOfTotal) == Keys(gs);
    r
  }

  lemma {:induction false} EntryTotalsAreGroupWeights(gs: seq<Group<string>>)
    ensures Sum(Map(gs, ToCategoryTotal), TotalOfEntry) == Sum(gs, GroupWeight(AmountOf))
    ensures Sum(Map(gs, ToCategoryTotal), CountOfEntry) == Sum(gs, GroupSize)
    decreases |gs|
  {
    if gs != [] {
      EntryTotalsAreGroupWeights(gs[1..]);
      assert Map(gs, ToCategoryTotal)[1..] == Map(gs[1..], ToCategoryTotal);
    }
  }

  /** The category totals add up to the total of all records, and their counts to
      the number of records. */
  lemma CategoryTotalsConserve(es: seq<Expense>)
    ensures Sum(CategoryTotals(es), TotalOfEntry) == Total(es)
    ensures Sum(CategoryTotals(es), CountOfEntry) == |es|
  {
    var gs := GroupByCategory(es);
    EntryTotalsAreGroupWeights(gs);
    GroupWeightsConserve(es, CategoryOf, AmountOf);
    GroupByPartitions(es, CategoryOf);
  }

  // ---------------------------------------------------------------------------
  // By month

  /** The two-digit 1-based month of a 0-based month index. */
  function MonthDigits(m: MonthIndex): (r: string)
    ensures |r| == 2 && IsDigit(r[0]) && IsDigit(r[1])
    ensures DecimalValue(r) == m + 1
  {
    PadTwoDigits(m + 1);
    PadTwo(IntToString(m + 1))
  }

  /** `YYYY-MM`: the year, a dash, the two-digit 1-based month. */
  function MonthKey(e: Expense): (r: string)
    ensures |r| == |IntToString(e.date.year)| + 3
    ensures r[..|r| - 3] == IntToString(e.date.year) && r[|r| - 3] == '-'
    ensures IsDigit(r[|r| - 2]) && IsDigit(r[|r| - 1]) && DecimalValue(r[|r| - 2..]) == e.date.month + 1
  {
    var y := IntToString(e.date.year);
    var m := MonthDigits(e.date.month);
    var r := y + "-" + m;
    assert r[..|r| - 3] == y;
    assert r[|r| - 2..] == m;
    r
  }

  lemma IntToStringInjective(a: int, b: int)
    requires IntToString(a) == IntToString(b)
    ensures a == b
  {
  }

  /** Different calendar months get different keys, so each month-group holds
      exactly one calendar month. */
  lemma MonthKeyIdentifiesMonth(a: Expense, b: Expense)
    ensures MonthKey(a) == MonthKey(b) <==> a.date.year == b.date.year && a.date.month == b.date.month
  {
    if MonthKey(a) == MonthKey(b) {
      SameKeySameMonth(a, b, MonthKey(a));
    }
  }

  lemma SameKeySameMonth(a: Expense, b: Expense, k: string)
    requires MonthKey(a) == k && MonthKey(b) == k
    ensures a.date.year == b.date.year && a.date.month == b.date.month
  {
    SameKeySameYear(a, b, k);
    assert DecimalValue(k[|k| - 2..]) == a.date.month + 1;
  }

  lemma SameKeySameYear(a: Expense, b: Expense, k: string)
    requires MonthKey(a) == k && MonthKey(b) == k
    ensures a.date.year == b.date.year
  {
    assert IntToString(a.date.year) == k[..|k| - 3];
    IntToStringInjective(a.date.year, b.date.year);
  }

  /** `groupByMonth`: one group per distinct `YYYY-MM` key, in order of first
      appearance, holding exactly the records with that key. */
  function GroupByMonth(es: seq<Expense>): (r: seq<Group<string>>)
    ensures Keys(r) == Dedup(Map(es, MonthKey))
    ensures forall i, e :: 0 <= i < |r| ==> (e in r[i].items <==> e in es && MonthKey(e) == r[i].key)
  {
    GroupBy(es, MonthKey)
  }

  /** A month group holds exactly the records of one calendar month, in input order. */
  lemma GroupByMonthIsCalendarMonth(es: seq<Expense>, i: nat, e: Expense)
    requires i < |GroupByMonth(es)| && e in GroupByMonth(es)[i].items
    ensures GroupByMonth(es)[i].items == MonthYearExpenses(es, e.date.month, e.date.year)
  {
    var gs := GroupByMonth(es);
    forall x | x in es ensures KeyIs(MonthKey, gs[i].key)(x) == InMonth(e.date.month, e.date.year)(x) {
      MonthKeyIdentifiesMonth(x, e);
    }
    FilterExt(es, KeyIs(MonthKey, gs[i].key), InMonth(e.date.month, e.date.year));
  }
}

=== FILE: model.dfy ===
/** The records the application stores and the shapes it derives from them.

    A date is the triple the application reads out of an ISO `YYYY-MM-DD`
    string: calendar year, 0-based month, day of month. Amounts and budgets are
    whole currency units. */
module Model {

  datatype Option<T> = None | Some(value: T)

  /** 0-based calendar month, as `Date.prototype.getMonth` returns it. */
  type MonthIndex = m: int | 0 <= m < 12

  type DayOfMonth = d: int | 1 <= d <= 31 witness 1

  datatype Date = Date(year: int, month: MonthIndex, day: DayOfMonth)

  /** Calendar order of two dates: negative, zero or positive, like the
      difference `new Date(a) - new Date(b)` of two ISO dates. */
  function CompareDates(a: Date, b: Date): (c: int)
    ensures c == 0 <==> a == b
  {
    if a.year != b.year then (if a.year < b.year then -1 else 1)
    else if a.month != b.month then (if a.month < b.month then -1 else 1)
    else if a.day != b.day then (if a.day < b.day then -1 else 1)
    else 0
  }

  /** `a` is on or before `b`. */
  predicate DateLe(a: Date, b: Date) {
    CompareDates(a, b) <= 0
  }

  /** One logged expense. `id` and `createdAt` are assigned when it is added. */
  datatype Expense = Expense(
    id: string,
    amount: int,
    category: string,
    description: string,
    date: Date,
    createdAt: string)

  function AmountOf(e: Expense): int { e.amount }
  function CategoryOf(e: Expense): string { e.category }
  function YearOf(e: Expense): int { e.date.year }
  function MonthOf(e: Expense): int { e.date.month }
  function DateOf(e: Expense): Date { e.date }
  function IdOf(e: Expense): string { e.id }

  /** No amount is negative (the form only ever submits positive amounts). */
  predicate NonNegativeAmounts(es: seq<Expense>) {
    forall e :: e in es ==> e.amount >= 0
  }

  datatype Category = Category(id: string, name: string, color: string)

  /** The filter panel's criteria. An empty category list, an absent date and an
      empty search term each mean "no restriction". */
  datatype Criteria = Criteria(
    categories: seq<string>,
    startDate: Option<Date>,
    endDate: Option<Date>,
    searchTerm: string)

  /** The criteria the application starts with and returns to when cleared. */
  const NoCriteria := Criteria([], None, None, "")

  /** One month of a yearly summary. */
  datatype MonthlyBucket = MonthlyBucket(name: string, month: int, total: int, count: int)

  /** One distinct category of a record list with its total and record count. */
  datatype CategoryTotal = CategoryTotal(category: string, total: int, count: int)

  const MonthAbbreviations: seq<string> :=
    ["Jan", "Feb", "Mar", "Apr", "May", "Jun", "Jul", "Aug", "Sep", "Oct", "Nov", "Dec"]

  const MonthNames: seq<string> :=
    ["January", "February", "March", "April", "May", "June",
     "July", "August", "September", "October", "November", "December"]

  /** The budget used before the user sets one. */
  const DefaultBudget := 5000

  /** The seven categories used before any are configured. */
  const DefaultCategories: seq<Category> := [
    Category("food", "Food & Dining", "#ef4444"),
    Category("transport", "Transport", "#f97316"),
    Category("entertainment", "Entertainment", "#8b5cf6"),
    Category("bills", "Bills & Utilities", "#06b6d4"),
    Category("shopping", "Shopping", "#ec4899"),
    Category("health", "Health & Fitness", "#10b981"),
    Category("other", "Other", "#64748b")
  ]
}

=== FILE: query.dfy ===
/** Selection and aggregation of expense records (src/utils/helpers.js): totals,
    year and month selection, the multi-criteria filter, the twelve-bucket
    monthly summary, the list of years and month names. */
module Query {
  import opened Seqs
  import opened Text
  import opened Model

  /** `calculateTotal`: the sum of the amounts. */
  function Total(es: seq<Expense>): (r: int)
    ensures es == [] ==> r == 0
    ensures |es| == 1 ==> r == es[0].amount
    ensures NonNegativeAmounts(es) ==> r >= 0
  {
    AmountsNonNegative(es);
    assert |es| == 1 ==> es[1..] == [] && Sum(es, AmountOf) == AmountOf(es[0]) + Sum([], AmountOf);
    Sum(es, AmountOf)
  }

  lemma AmountsNonNegative(es: seq<Expense>)
    ensures NonNegativeAmounts(es) ==> Sum(es, AmountOf) >= 0
  {
    if NonNegativeAmounts(es) {
      SumNonNegative(es, AmountOf);
    }
  }

  /** Totals add up over concatenation, and are never negative for non-negative amounts. */
  lemma TotalAppend(a: seq<Expense>, b: seq<Expense>)
    ensures Total(a + b) == Total(a) + Total(b)
    ensures NonNegativeAmounts(a) ==> Total(a) >= 0
  {
    SumAppend(a, b, AmountOf);
    if NonNegativeAmounts(a) {
      SumNonNegative(a, AmountOf);
    }
  }

  // ---------------------------------------------------------------------------
  // Year and month selection

  /** The record lies in year `y`. */
  function InYear(y: int): Expense -> bool {
    (e: Expense) => e.date.year == y
  }

  /** The record lies in month `m` of year `y`. */
  function InMonth(m: int, y: int): Expense -> bool {
    (e: Expense) => e.date.month == m && e.date.year == y
  }

  /** `getYearExpenses`: exactly the records dated in year `y`, with their
      multiplicities, in input order. */
  function YearExpenses(es: seq<Expense>, y: int): (r: seq<Expense>)
    ensures forall e :: e in r <==> e in es && e.date.year == y
    ensures forall e :: multiset(r)[e] == if e.date.year == y then multiset(es)[e] else 0
    ensures IsSubseq(r, es)
  {
    FilterMultiset(es, InYear(y));
    FilterIsSubseq(es, InYear(y));
    Filter(es, InYear(y))
  }

  /** `getMonthYearExpenses`: exactly the records dated in month `m` of year `y`,
      with their multiplicities, in input order. */
  function MonthYearExpenses(es: seq<Expense>, m: int, y: int): (r: seq<Expense>)
    ensures forall e :: e in r <==> e in es && e.date.month == m && e.date.year == y
    ensures forall e :: multiset(r)[e]
                       == if e.date.month == m && e.date.year == y then multiset(es)[e] else 0
    ensures IsSubseq(r, es)
  {
    FilterMultiset(es, InMonth(m, y));
    FilterIsSubseq(es, InMonth(m, y));
    Filter(es, InMonth(m, y))
  }

  /** Selecting a month is selecting the year, then the month within it. */
  lemma MonthWithinYear(es: seq<Expense>, m: int, y: int)
    ensures MonthYearExpenses(es, m, y) == Filter(YearExpenses(es, y), KeyIs(MonthOf, m))
  {
    FilterFilter(es, InYear(y), KeyIs(MonthOf, m), InMonth(m, y));
  }

  // ---------------------------------------------------------------------------
  // The multi-criteria filter

  /** `filters.searchTerm && filters.searchTerm.trim()`: the search criterion is in force. */
  predicate SearchActive(term: string) {
    |term| > 0 && |Trim(term)| > 0
  }

  /** A search term is in force exactly when it holds a non-whitespace character. */
  lemma SearchActiveIffNotBlank(term: string)
    ensures SearchActive(term) <==> !IsBlank(term)
  {
  }

  predicate CategoryOk(e: Expense, f: Criteria) {
    |f.categories| == 0 || e.category in f.categories
  }

  predicate StartOk(e: Expense, f: Criteria) {
    f.startDate.None? || DateLe(f.startDate.value, e.date)
  }

  predicate EndOk(e: Expense, f: Criteria) {
    f.endDate.None? || DateLe(e.date, f.endDate.value)
  }

  /** The search compares lower-cased text with the lower-cased UNTRIMMED term. */
  predicate SearchOk(e: Expense, f: Criteria) {
    !SearchActive(f.searchTerm) || Contains(Lower(e.description), Lower(f.searchTerm))
  }

  /** A record satisfies every criterion that is in force. */
  predicate Matches(e: Expense, f: Criteria) {
    CategoryOk(e, f) && StartOk(e, f) && EndOk(e, f) && SearchOk(e, f)
  }

  function MatchesAll(f: Criteria): Expense -> bool { (e: Expense) => Matches(e, f) }
  function CategoryStage(f: Criteria): Expense -> bool { (e: Expense) => CategoryOk(e, f) }
  function StartStage(f: Criteria): Expense -> bool { (e: Expense) => StartOk(e, f) }
  function EndStage(f: Criteria): Expense -> bool { (e: Expense) => EndOk(e, f) }
  function SearchStage(f: Criteria): Expense -> bool { (e: Expense) => SearchOk(e, f) }
  function UpToStart(f: Criteria): Expense -> bool { (e: Expense) => CategoryOk(e, f) && StartOk(e, f) }
  function UpToEnd(f: Criteria): Expense -> bool {
    (e: Expense) => CategoryOk(e, f) && StartOk(e, f) && EndOk(e, f)
  }

  /** A stage that is not in force keeps every record. */
  function Stage(es: seq<Expense>, active: bool, p: Expense -> bool): (r: seq<Expense>)
    requires !active ==> forall e :: p(e)
    ensures r == Filter(es, p)
  {
    if active then Filter(es, p) else FilterKeepsAll(es, p); es
  }

  /** `filterExpenses`: the four criteria applied one after the other, each only
      when in force. The result is the single-pass filter by `Matches`. */
  function FilterExpenses(es: seq<Expense>, f: Criteria): (r: seq<Expense>)
    ensures r == Filter(es, MatchesAll(f))
  {
    var byCategory := Stage(es, |f.categories| > 0, CategoryStage(f));
    var byStart := Stage(byCategory, f.startDate.Some?, StartStage(f));
    var byEnd := Stage(byStart, f.endDate.Some?, EndStage(f));
    var bySearch := Stage(byEnd, SearchActive(f.searchTerm), SearchStage(f));
    FilterFilter(es, CategoryStage(f), StartStage(f), UpToStart(f));
    FilterFilter(es, UpToStart(f), EndStage(f), UpToEnd(f));
    FilterFilter(es, UpToEnd(f), SearchStage(f), MatchesAll(f));
    bySearch
  }

  /** A record survives the filter exactly when it meets every criterion in force;
      survivors keep their multiplicity and their relative order. */
  lemma FilterExpensesSpec(es: seq<Expense>, f: Criteria)
    ensures forall e :: e in FilterExpenses(es, f) <==> e in es && Matches(e, f)
    ensures forall e :: multiset(FilterExpenses(es, f))[e]
                       == if Matches(e, f) then multiset(es)[e] else 0
    ensures IsSubseq(FilterExpenses(es, f), es)
  {
    FilterMultiset(es, MatchesAll(f));
    FilterIsSubseq(es, MatchesAll(f));
  }

  /** Filtering twice with the same criteria is filtering once. */
  lemma FilterExpensesIdempotent(es: seq<Expense>, f: Criteria)
    ensures FilterExpenses(FilterExpenses(es, f), f) == FilterExpenses(es, f)
  {
    FilterIdempotent(es, MatchesAll(f));
  }

  /** The cleared criteria return the input unchanged. */
  lemma FilterExpensesNoCriteria(es: seq<Expense>)
    ensures FilterExpenses(es, NoCriteria) == es
  {
    FilterKeepsAll(es, MatchesAll(NoCriteria));
  }

  /** A search term made only of whitespace restricts nothing: the result is the
      same as with an empty term. */
  lemma BlankSearchIgnored(es: seq<Expense>, f: Criteria)
    requires IsBlank(f.searchTerm)
    ensures FilterExpenses(es, f) == FilterExpenses(es, f.(searchTerm := ""))
  {
    FilterExt(es, MatchesAll(f), MatchesAll(f.(searchTerm := "")));
  }

  // ---------------------------------------------------------------------------
  // Monthly summary

  function Bucket(es: seq<Expense>, m: MonthIndex, y: int): MonthlyBucket {
    var inMonth := MonthYearExpenses(es, m, y);
    MonthlyBucket(MonthAbbreviations[m], m, Total(inMonth), |inMonth|)
  }

  /** `getMonthlyTotals`: always twelve buckets, bucket `i` for month `i`. */
  function MonthlyTotals(es: seq<Expense>, y: int): (r: seq<MonthlyBucket>)
    ensures |r| == 12
    ensures forall i :: 0 <= i < 12 ==> r[i].month == i && r[i].name == MonthAbbreviations[i]
  {
    seq(12, i requires 0 <= i < 12 => Bucket(es, i, y))
  }

  function BucketTotal(b: MonthlyBucket): int { b.total }
  function BucketCount(b: MonthlyBucket): int { b.count }

  /** The month indices `n`, ..., 11 in ascending order. */
  function MonthsFrom(n: nat): (r: seq<int>)
    requires n <= 12
    ensures |r| == 12 - n
    ensures forall i :: 0 <= i < |r| ==> r[i] == n + i
    decreases 12 - n
  {
    if n == 12 then [] else [n] + MonthsFrom(n + 1)
  }

  lemma {:induction false} BucketTotalsFrom(es: seq<Expense>, y: int, n: nat)
    requires n <= 12
    ensures Sum(MonthlyTotals(es, y)[n..], BucketTotal)
      == SumByKey(MonthsFrom(n), YearExpenses(es, y), MonthOf, AmountOf)
    decreases 12 - n
  {
    var bs := MonthlyTotals(es, y);
    if n < 12 {
      BucketTotalsFrom(es, y, n + 1);
      BucketOfYear(es, y, n);
      assert bs[n..][1..] == bs[n + 1..];
      var ms := MonthsFrom(n);
      assert ms[0] == n && ms[1..] == MonthsFrom(n + 1);
      assert SumByKey(ms, YearExpenses(es, y), MonthOf, AmountOf)
        == bs[n].total + SumByKey(ms[1..], YearExpenses(es, y), MonthOf, AmountOf);
    }
  }

  lemma {:induction false} BucketCountsFrom(es: seq<Expense>, y: int, n: nat)
    requires n <= 12
    ensures Sum(MonthlyTotals(es, y)[n..], BucketCount)
      == SumByKey(MonthsFrom(n), YearExpenses(es, y), MonthOf, One)
    decreases 12 - n
  {
    var bs := MonthlyTotals(es, y);
    if n < 12 {
      BucketCountsFrom(es, y, n + 1);
      BucketOfYear(es, y, n);
      assert bs[n..][1..] == bs[n + 1..];
      var ms := MonthsFrom(n);
      assert ms[0] == n && ms[1..] == MonthsFrom(n + 1);
      assert SumByKey(ms, YearExpenses(es, y), MonthOf, One)
        == bs[n].count + SumByKey(ms[1..], YearExpenses(es, y), MonthOf, One);
    }
  }

  /** Bucket `m` sums and counts the year's records of month `m`. */
  lemma BucketOfYear(es: seq<Expense>, y: int, m: MonthIndex)
    ensures MonthlyTotals(es, y)[m].total == Sum(Filter(YearExpenses(es, y), KeyIs(MonthOf, m)), AmountOf)
    ensures MonthlyTotals(es, y)[m].count == Sum(Filter(YearExpenses(es, y), KeyIs(MonthOf, m)), One)
  {
    MonthWithinYear(es, m, y);
    SumOfOnes(MonthYearExpenses(es, m, y));
  }

  /** The twelve buckets partition the year: their totals add up to the year's
      total and their counts to the number of records in the year. */
  lemma MonthlyTotalsConserve(es: seq<Expense>, y: int)
    ensures Sum(MonthlyTotals(es, y), BucketTotal) == Total(YearExpenses(es, y))
    ensures Sum(MonthlyTotals(es, y), BucketCount) == |YearExpenses(es, y)|
  {
    BucketTotalsConserve(es, y);
    BucketCountsConserve(es, y);
  }

  lemma BucketTotalsConserve(es: seq<Expense>, y: int)
    ensures Sum(MonthlyTotals(es, y), BucketTotal) == Sum(YearExpenses(es, y), AmountOf)
  {
    BucketTotalsFrom(es, y, 0);
    assert MonthlyTotals(es, y)[0..] == MonthlyTotals(es, y);
    MonthsCoverYear(es, y);
    PartitionSum(MonthsFrom(0), YearExpenses(es, y), MonthOf, AmountOf);
  }

  lemma BucketCountsConserve(es: seq<Expense>, y: int)
    ensures Sum(MonthlyTotals(es, y), BucketCount) == |YearExpenses(es, y)|
  {
    BucketCountsFrom(es, y, 0);
    assert MonthlyTotals(es, y)[0..] == MonthlyTotals(es, y);
    MonthsCoverYear(es, y);
    PartitionSum(MonthsFrom(0), YearExpenses(es, y), MonthOf, One);
    SumOfOnes(YearExpenses(es, y));
  }

  lemma MonthsCoverYear(es: seq<Expense>, y: int)
    ensures forall e :: e in YearExpenses(es, y) ==> MonthOf(e) in MonthsFrom(0)
  {
    var months := MonthsFrom(0);
    forall e | e in YearExpenses(es, y) ensures MonthOf(e) in months {
      assert months[e.date.month] == e.date.month;
    }
  }

  /** With non-negative amounts, no month's total exceeds the year's total. */
  lemma BucketWithinYear(es: seq<Expense>, y: int, m: MonthIndex)
    requires NonNegativeAmounts(es)
    ensures 0 <= MonthlyTotals(es, y)[m].total <= Total(YearExpenses(es, y))
  {
    MonthWithinYear(es, m, y);
    assert MonthlyTotals(es, y)[m].total == Total(MonthYearExpenses(es, m, y));
    SumFilterBound(YearExpenses(es, y), KeyIs(MonthOf, m), AmountOf);
  }

  // ---------------------------------------------------------------------------
  // Years and month names

  /** Insert `x` into a strictly descending list that does not contain it. */
  function InsertDescending(x: int, s: seq<int>): (r: seq<int>)
    requires x !in s
    requires forall i, j :: 0 <= i < j < |s| ==> s[i] > s[j]
    ensures forall i, j :: 0 <= i < j < |r| ==> r[i] > r[j]
    ensures forall v :: v in r <==> v == x || v in s
  {
    if s == [] || x > s[0] then [x] + s
    else
      assert forall v :: v in s[1..] ==> s[0] > v by {
        forall v | v in s[1..] ensures s[0] > v {
          var k :| 0 <= k < |s[1..]| && s[1..][k] == v;
          assert s[k + 1] == v;
        }
      }
      assert x < s[0];
      var rest := InsertDescending(x, s[1..]);
      assert forall j :: 0 <= j < |rest| ==> s[0] > rest[j] by {
        forall j | 0 <= j < |rest| ensures s[0] > rest[j] {
          assert rest[j] in rest;
        }
      }
      assert forall v :: v in s <==> v == s[0] || v in s[1..] by {
        assert s == [s[0]] + s[1..];
      }
      [s[0]] + rest
  }

  /** Sort distinct numbers into strictly descending order. */
  function SortDescending(s: seq<int>): (r: seq<int>)
    requires Distinct(s)
    ensures forall i, j :: 0 <= i < j < |r| ==> r[i] > r[j]
    ensures forall v :: v in r <==> v in s
  {
    if s == [] then []
    else
      assert s == [s[0]] + s[1..];
      InsertDescending(s[0], SortDescending(s[1..]))
  }

  /** `getAvailableYears`: every year some record is dated in, once each, most recent first. */
  function AvailableYears(es: seq<Expense>): (r: seq<int>)
    ensures forall i, j :: 0 <= i < j < |r| ==> r[i] > r[j]
    ensures forall y :: y in r <==> exists e :: e in es && e.date.year == y
  {
    var years := Map(es, YearOf);
    assert forall y :: y in years <==> exists e :: e in es && e.date.year == y by {
      forall y ensures y in years <==> exists e :: e in es && e.date.year == y {
        if exists e :: e in es && e.date.year == y {
          var e :| e in es && e.date.year == y;
          var i :| 0 <= i < |es| && es[i] == e;
          assert years[i] == y;
        }
      }
    }
    SortDescending(Dedup(years))
  }

  /** `getMonthName`: the full English name, whose first three letters are the
      abbreviation the monthly summary uses. */
  function MonthName(m: MonthIndex): (r: string)
    ensures |r| >= 3 && r[..3] == MonthAbbreviations[m]
  {
    MonthNames[m]
  }
}

=== FILE: seqs.dfy ===
/** Generic sequence operations the expense views are built from: filtering
    (Array.prototype.filter), summing (a reduce with `+`), first-appearance
    de-duplication, and the partition lemma that lets a total be split by key. */
module Seqs {

  /** The elements of `s` that satisfy `p`, in their original order. */
  function Filter<T(!new)>(s: seq<T>, p: T -> bool): (r: seq<T>)
    ensures |r| <= |s|
    ensures forall x :: x in r <==> x in s && p(x)
  {
    if s == [] then [] else (if p(s[0]) then [s[0]] else []) + Filter(s[1..], p)
  }

  /** `a` can be obtained from `b` by deleting elements (order is kept). */
  predicate IsSubseq<T(==)>(a: seq<T>, b: seq<T>)
    decreases |b|
  {
    && |a| <= |b|
    && (|a| == 0 || (a[0] == b[0] && IsSubseq(a[1..], b[1..])) || IsSubseq(a, b[1..]))
  }

  /** No element occurs twice. */
  predicate Distinct<T(==)>(s: seq<T>) {
    forall i, j :: 0 <= i < j < |s| ==> s[i] != s[j]
  }

  /** Sum of `w` over the elements of `s`, left to right. */
  function Sum<T>(s: seq<T>, w: T -> int): int {
    if s == [] then 0 else w(s[0]) + Sum(s[1..], w)
  }

  /** The weight that turns a `Sum` into a count. */
  function One<T>(x: T): int { 1 }

  /** The predicate "the key of x is k". */
  function KeyIs<T, K(==)>(f: T -> K, k: K): T -> bool {
    x => f(x) == k
  }

  /** Sum of the per-key sums `Sum(Filter(s, KeyIs(f, k)), w)` over the keys `ks`. */
  function SumByKey<T(!new), K(==)>(ks: seq<K>, s: seq<T>, f: T -> K, w: T -> int): int {
    if ks == [] then 0 else Sum(Filter(s, KeyIs(f, ks[0])), w) + SumByKey(ks[1..], s, f, w)
  }

  /** Index of the first occurrence of `x` in `s`. */
  function FirstIndex<T(==)>(s: seq<T>, x: T): (i: nat)
    requires x in s
    ensures i < |s| && s[i] == x
    ensures forall j :: 0 <= j < i ==> s[j] != x
  {
    if s[0] == x then 0 else 1 + FirstIndex(s[1..], x)
  }

  /** The distinct elements of `s` in order of first appearance (what
      `[...new Set(xs)]` and the key order of a reduce into an object give). */
  function Dedup<T(==,!new)>(s: seq<T>): (r: seq<T>)
    ensures Distinct(r)
    ensures forall x :: x in r <==> x in s
    decreases |s|
  {
    if s == [] then []
    else
      var init := s[..|s| - 1];
      var d := Dedup(init);
      assert s == init + [s[|s| - 1]];
      if s[|s| - 1] in d then d else d + [s[|s| - 1]]
  }

  /** Elements of `s` mapped through `f`, index by index. */
  function Map<T, U>(s: seq<T>, f: T -> U): (r: seq<U>)
    ensures |r| == |s|
    ensures forall i :: 0 <= i < |s| ==> r[i] == f(s[i])
  {
    seq(|s|, i requires 0 <= i < |s| => f(s[i]))
  }

  // ---------------------------------------------------------------------------
  // Filter

  lemma {:induction false} FilterAppend<T(!new)>(a: seq<T>, b: seq<T>, p: T -> bool)
    ensures Filter(a + b, p) == Filter(a, p) + Filter(b, p)
    decreases |a|
  {
    if a == [] {
      assert a + b == b;
    } else {
      assert (a + b)[1..] == a[1..] + b;
      FilterAppend(a[1..], b, p);
    }
  }

  /** Filtering keeps every kept element with its full multiplicity. */
  lemma {:induction false} FilterMultiset<T(!new)>(s: seq<T>, p: T -> bool)
    ensures forall x :: multiset(Filter(s, p))[x] == if p(x) then multiset(s)[x] else 0
    decreases |s|
  {
    if s != [] {
      FilterMultiset(s[1..], p);
      assert s == [s[0]] + s[1..];
      assert multiset(s) == multiset([s[0]]) + multiset(s[1..]);
    }
  }

  lemma {:induction false} FilterIsSubseq<T(!new)>(s: seq<T>, p: T -> bool)
    ensures IsSubseq(Filter(s, p), s)
    decreases |s|
  {
    if s != [] {
      FilterIsSubseq(s[1..], p);
      var rest := Filter(s[1..], p);
      if p(s[0]) {
        assert Filter(s, p) == [s[0]] + rest;
        assert ([s[0]] + rest)[1..] == rest;
      } else {
        assert Filter(s, p) == rest;
      }
    }
  }

  /** Two predicates that agree on the elements of `s` select the same elements. */
  lemma {:induction false} FilterExt<T(!new)>(s: seq<T>, p: T -> bool, q: T -> bool)
    requires forall x :: x in s ==> p(x) == q(x)
    ensures Filter(s, p) == Filter(s, q)
    decreases |s|
  {
    if s != [] {
      FilterExt(s[1..], p, q);
    }
  }

  /** Filtering by `p` and then by `q` is filtering by their conjunction `pq`. */
  lemma {:induction false} FilterFilter<T(!new)>(s: seq<T>, p: T -> bool, q: T -> bool, pq: T -> bool)
    requires forall x :: pq(x) == (p(x) && q(x))
    ensures Filter(Filter(s, p), q) == Filter(s, pq)
    decreases |s|
  {
    if s != [] {
      FilterFilter(s[1..], p, q, pq);
      var rest := Filter(s[1..], p);
      if p(s[0]) {
        assert Filter(s, p) == [s[0]] + rest;
        assert ([s[0]] + rest)[1..] == rest;
        assert Filter([s[0]] + rest, q) == (if q(s[0]) then [s[0]] else []) + Filter(rest, q);
      } else {
        assert Filter(s, p) == rest;
      }
    }
  }

  /** A predicate every element satisfies removes nothing. */
  lemma {:induction false} FilterKeepsAll<T(!new)>(s: seq<T>, p: T -> bool)
    requires forall x :: x in s ==> p(x)
    ensures Filter(s, p) == s
    decreases |s|
  {
    if s != [] {
      FilterKeepsAll(s[1..], p);
    }
  }

  /** A predicate no element satisfies removes everything. */
  lemma {:induction false} FilterKeepsNone<T(!new)>(s: seq<T>, p: T -> bool)
    requires forall x :: x in s ==> !p(x)
    ensures Filter(s, p) == []
    decreases |s|
  {
    if s != [] {
      FilterKeepsNone(s[1..], p);
    }
  }

  /** A common head does not disturb a filtered sequence's relation to a suffix. */
  lemma FilterBehindHead<T(!new)>(h: T, a: seq<T>, b: seq<T>, xs: seq<T>, p: T -> bool)
    requires Filter(a, p) == Filter(b, p) + xs
    ensures Filter([h] + a, p) == Filter([h] + b, p) + xs
  {
    calc {
      Filter([h] + a, p);
      { FilterAppend([h], a, p); }
      Filter([h], p) + Filter(a, p);
      Filter([h], p) + (Filter(b, p) + xs);
      (Filter([h], p) + Filter(b, p)) + xs;
      { FilterAppend([h], b, p); }
      Filter([h] + b, p) + xs;
    }
  }

  lemma FilterIdempotent<T(!new)>(s: seq<T>, p: T -> bool)
    ensures Filter(Filter(s, p), p) == Filter(s, p)
  {
    FilterKeepsAll(Filter(s, p), p);
  }

  // ---------------------------------------------------------------------------
  // Sum

  lemma {:induction false} SumAppend<T>(a: seq<T>, b: seq<T>, w: T -> int)
    ensures Sum(a + b, w) == Sum(a, w) + Sum(b, w)
    decreases |a|
  {
    if a == [] {
      assert a + b == b;
    } else {
      assert (a + b)[1..] == a[1..] + b;
      SumAppend(a[1..], b, w);
    }
  }

  lemma {:induction false} SumOfOnes<T>(s: seq<T>)
    ensures Sum(s, One) == |s|
    decreases |s|
  {
    if s != [] {
      SumOfOnes(s[1..]);
    }
  }

  lemma {:induction false} SumNonNegative<T>(s: seq<T>, w: T -> int)
    requires forall x :: x in s ==> w(x) >= 0
    ensures Sum(s, w) >= 0
    decreases |s|
  {
    if s != [] {
      SumNonNegative(s[1..], w);
    }
  }

  /** Rearranging a sequence does not change its sum. */
  lemma {:induction false} SumPermutation<T>(a: seq<T>, b: seq<T>, w: T -> int)
    requires multiset(a) == multiset(b)
    ensures Sum(a, w) == Sum(b, w)
    decreases |a|
  {
    if a == [] {
      assert |multiset(b)| == 0;
    } else {
      HeadOfPermutation(a, b);
      var i := FirstIndex(b, a[0]);
      var rest := b[..i] + b[i + 1..];
      assert Sum(b, w) == w(a[0]) + Sum(rest, w) && multiset(rest) == multiset(b) - multiset{a[0]} by {
        assert b == b[..i] + ([a[0]] + b[i + 1..]);
        RemoveOne(b[..i], a[0], b[i + 1..], w);
      }
      assert multiset(a[1..]) == multiset(a) - multiset{a[0]} by {
        assert a == [a[0]] + a[1..];
      }
      SumPermutation(a[1..], rest, w);
      assert Sum(a, w) == w(a[0]) + Sum(a[1..], w);
    }
  }

  lemma HeadOfPermutation<T>(a: seq<T>, b: seq<T>)
    requires a != [] && multiset(a) == multiset(b)
    ensures a[0] in b
  {
    assert a[0] in multiset(a);
  }

  /** Taking `x` out from between `front` and `back` takes its weight off the sum
      and one copy of it off the multiset. */
  lemma RemoveOne<T>(front: seq<T>, x: T, back: seq<T>, w: T -> int)
    ensures multiset(front + back) == multiset(front + ([x] + back)) - multiset{x}
    ensures Sum(front + ([x] + back), w) == w(x) + Sum(front + back, w)
  {
    SumAppend(front, [x] + back, w);
    assert ([x] + back)[1..] == back;
    SumAppend(front, back, w);
    assert multiset(front + ([x] + back)) == multiset(front) + multiset{x} + multiset(back);
  }

  /** With non-negative weights, a filtered sum never exceeds the full sum. */
  lemma {:induction false} SumFilterBound<T(!new)>(s: seq<T>, p: T -> bool, w: T -> int)
    requires forall x :: x in s ==> w(x) >= 0
    ensures 0 <= Sum(Filter(s, p), w) <= Sum(s, w)
    decreases |s|
  {
    if s != [] {
      SumFilterBound(s[1..], p, w);
      var rest := Filter(s[1..], p);
      if p(s[0]) {
        assert Filter(s, p) == [s[0]] + rest;
        assert ([s[0]] + rest)[1..] == rest;
      } else {
        assert Filter(s, p) == rest;
      }
    }
  }

  /** Two predicates that agree on `s` give the same filtered sum. */
  lemma SumFilterExt<T(!new)>(s: seq<T>, p: T -> bool, q: T -> bool, w: T -> int)
    requires forall x :: x in s ==> p(x) == q(x)
    ensures Sum(Filter(s, p), w) == Sum(Filter(s, q), w)
  {
    FilterExt(s, p, q);
  }

  // ---------------------------------------------------------------------------
  // Partition by key

  lemma {:induction false} SumByKeyOfEmpty<T(!new), K>(ks: seq<K>, f: T -> K, w: T -> int)
    ensures SumByKey(ks, [], f, w) == 0
    decreases |ks|
  {
    if ks != [] {
      SumByKeyOfEmpty(ks[1..], f, w);
    }
  }

  /** Adding one element in front adds its weight to exactly the one key it has. */
  lemma {:induction false} SumByKeyCons<T(!new), K>(ks: seq<K>, x: T, t: seq<T>, f: T -> K, w: T -> int)
    requires Distinct(ks)
    ensures SumByKey(ks, [x] + t, f, w) == (if f(x) in ks then w(x) else 0) + SumByKey(ks, t, f, w)
    decreases |ks|
  {
    if ks != [] {
      KeySumCons(x, t, f, ks[0], w);
      DistinctTail(ks);
      SumByKeyCons(ks[1..], x, t, f, w);
    }
  }

  /** One key's sum over `[x] + t`: the weight of `x` if it has the key, plus the sum
      over `t`. */
  lemma KeySumCons<T(!new), K>(x: T, t: seq<T>, f: T -> K, k: K, w: T -> int)
    ensures Sum(Filter([x] + t, KeyIs(f, k)), w) == (if f(x) == k then w(x) else 0) + Sum(Filter(t, KeyIs(f, k)), w)
  {
    var s := [x] + t;
    assert s[0] == x && s[1..] == t;
    var rest := Filter(t, KeyIs(f, k));
    if f(x) == k {
      assert Filter(s, KeyIs(f, k)) == [x] + rest;
      assert ([x] + rest)[1..] == rest;
    } else {
      assert Filter(s, KeyIs(f, k)) == rest;
    }
  }

  /** The tail of a distinct sequence is distinct and does not hold its head. */
  lemma DistinctTail<T>(ks: seq<T>)
    requires ks != [] && Distinct(ks)
    ensures Distinct(ks[1..]) && ks[0] !in ks[1..]
    ensures forall x :: x in ks <==> x == ks[0] || x in ks[1..]
  {
    forall i, j | 0 <= i < j < |ks[1..]| ensures ks[1..][i] != ks[1..][j] {
      assert ks[1..][i] == ks[i + 1] && ks[1..][j] == ks[j + 1];
    }
    assert ks == [ks[0]] + ks[1..];
  }

  /** When the distinct keys `ks` cover every element's key, the per-key sums add up
      to the whole sum: every element is counted under exactly one key. */
  lemma {:induction false} PartitionSum<T(!new), K>(ks: seq<K>, s: seq<T>, f: T -> K, w: T -> int)
    requires Distinct(ks)
    requires forall x :: x in s ==> f(x) in ks
    ensures SumByKey(ks, s, f, w) == Sum(s, w)
    decreases |s|
  {
    if s == [] {
      SumByKeyOfEmpty(ks, f, w);
    } else {
      assert s == [s[0]] + s[1..];
      SumByKeyCons(ks, s[0], s[1..], f, w);
      PartitionSum(ks, s[1..], f, w);
    }
  }

  // ---------------------------------------------------------------------------
  // First appearance

  lemma {:induction false} FirstIndexExtend<T>(s: seq<T>, y: T, x: T)
    requires x in s
    ensures x in s + [y] && FirstIndex(s + [y], x) == FirstIndex(s, x)
    decreases |s|
  {
    if s[0] != x {
      assert (s + [y])[1..] == s[1..] + [y];
      FirstIndexExtend(s[1..], y, x);
    }
  }

  lemma FirstIndexOfNew<T>(s: seq<T>, y: T)
    requires y !in s
    ensures y in s + [y] && FirstIndex(s + [y], y) == |s|
  {
    assert forall j :: 0 <= j < |s| ==> (s + [y])[j] == s[j];
    assert (s + [y])[|s|] == y;
  }

  /** `Dedup` lists the distinct elements in order of their first appearance. */
  lemma {:induction false} DedupFirstAppearance<T(!new)>(s: seq<T>)
    ensures forall i, j :: 0 <= i < j < |Dedup(s)| ==>
      FirstIndex(s, Dedup(s)[i]) < FirstIndex(s, Dedup(s)[j])
    decreases |s|
  {
    if s != [] {
      var init := s[..|s| - 1];
      var last := s[|s| - 1];
      assert s == init + [last];
      DedupFirstAppearance(init);
      var d := Dedup(init);
      forall x | x in d ensures FirstIndex(s, x) == FirstIndex(init, x) {
        FirstIndexExtend(init, last, x);
      }
      if last !in d {
        FirstIndexOfNew(init, last);
        forall x | x in d ensures FirstIndex(init, x) < |init| { }
      }
    }
  }
}

=== FILE: sorting.dfy ===
/** `sortExpenses` (src/utils/helpers.js): a copy of the records ordered by date,
    amount or category, ascending or descending.

    The source hands a comparator to the built-in `Array.prototype.sort`, which
    is stable; "descending" only negates the comparison. The model sorts with a
    stable insertion sort over the same comparator, so records with equal keys
    keep their input order in both directions. */
module Sorting {
  import opened Seqs
  import opened Model

  /** The `sortBy` argument: any other value compares every pair as equal. */
  datatype SortKey = ByDate | ByAmount | ByCategory | ByOther

  /** The `order` argument: only `'desc'` reverses the comparison. */
  datatype Order = Asc | Desc

  /** Lexicographic order of character codes: -1, 0 or 1. Stands in for
      `localeCompare`. */
  function CompareStrings(a: string, b: string): (c: int)
    ensures -1 <= c <= 1
    ensures c == 0 <==> a == b
  {
    if a == [] && b == [] then 0
    else if a == [] then -1
    else if b == [] then 1
    else if a[0] < b[0] then -1
    else if a[0] > b[0] then 1
    else
      var c := CompareStrings(a[1..], b[1..]);
      assert a == [a[0]] + a[1..] && b == [b[0]] + b[1..];
      c
  }

  lemma {:induction false} CompareStringsAntisymmetric(a: string, b: string)
    ensures CompareStrings(a, b) == -CompareStrings(b, a)
    decreases |a|
  {
    if a != [] && b != [] && a[0] == b[0] {
      CompareStringsAntisymmetric(a[1..], b[1..]);
    }
  }

  lemma {:induction false} CompareStringsTransitive(a: string, b: string, c: string)
    requires CompareStrings(a, b) <= 0 && CompareStrings(b, c) <= 0
    ensures CompareStrings(a, c) <= 0
    decreases |a|
  {
    if a != [] && b != [] && c != [] && a[0] == b[0] == c[0] {
      CompareStringsTransitive(a[1..], b[1..], c[1..]);
    }
  }

  /** The comparison the source computes before applying the order: negative when
      `a` sorts first. */
  function Comparison(k: SortKey, a: Expense, b: Expense): (c: int)
    ensures k == ByDate ==> (c == 0 <==> a.date == b.date) && (c <= 0 <==> DateLe(a.date, b.date))
    ensures k == ByAmount ==> (c == 0 <==> a.amount == b.amount) && (c < 0 <==> a.amount < b.amount)
    ensures k == ByCategory ==> (c == 0 <==> a.category == b.category)
    ensures k == ByOther ==> c == 0
  {
    match k
    case ByDate => CompareDates(a.date, b.date)
    case ByAmount => a.amount - b.amount
    case ByCategory => CompareStrings(a.category, b.category)
    case ByOther => 0
  }

  /** The comparator handed to the built-in sort: descending order negates the
      comparison, so the same pairs tie in both orders. */
  function Cmp(o: Order, k: SortKey, a: Expense, b: Expense): (r: int)
    ensures r == 0 <==> Comparison(k, a, b) == 0
    ensures o == Asc ==> r == Comparison(k, a, b)
    ensures o == Desc ==> r == -Comparison(k, a, b)
  {
    if o == Desc then -Comparison(k, a, b) else Comparison(k, a, b)
  }

  lemma CmpAntisymmetric(o: Order, k: SortKey, a: Expense, b: Expense)
    ensures Cmp(o, k, a, b) == -Cmp(o, k, b, a)
  {
    if k == ByCategory {
      CompareStringsAntisymmetric(a.category, b.category);
    }
  }

  lemma CmpTransitive(o: Order, k: SortKey, a: Expense, b: Expense, c: Expense)
    requires Cmp(o, k, a, b) <= 0 && Cmp(o, k, b, c) <= 0
    ensures Cmp(o, k, a, c) <= 0
  {
    if k == ByCategory {
      if o == Asc {
        CompareStringsTransitive(a.category, b.category, c.category);
      } else {
        CompareStringsAntisymmetric(a.category, b.category);
        CompareStringsAntisymmetric(b.category, c.category);
        CompareStringsAntisymmetric(a.category, c.category);
        CompareStringsTransitive(c.category, b.category, a.category);
      }
    }
  }

  /** `a` sorts strictly before `b` and `b` no later than `c`: `a` sorts strictly before `c`. */
  lemma CmpStrictTransitive(o: Order, k: SortKey, a: Expense, b: Expense, c: Expense)
    requires Cmp(o, k, a, b) < 0 && Cmp(o, k, b, c) <= 0
    ensures Cmp(o, k, a, c) < 0
  {
    CmpAntisymmetric(o, k, a, c);
    CmpAntisymmetric(o, k, a, b);
    if Cmp(o, k, c, a) <= 0 {
      CmpTransitive(o, k, b, c, a);
    }
  }

  /** Every record sorts no later than every record after it. */
  predicate Sorted(o: Order, k: SortKey, s: seq<Expense>) {
    forall i, j :: 0 <= i < j < |s| ==> Cmp(o, k, s[i], s[j]) <= 0
  }

  /** Put `x` after every record of `t` that does not sort strictly after it. */
  function Insert(o: Order, k: SortKey, x: Expense, t: seq<Expense>): (r: seq<Expense>)
    ensures |r| == |t| + 1
    ensures multiset(r) == multiset(t) + multiset{x}
    ensures forall y :: y in r <==> y == x || y in t
  {
    if t == [] then [x]
    else if Cmp(o, k, x, t[0]) < 0 then [x] + t
    else
      var r := [t[0]] + Insert(o, k, x, t[1..]);
      assert t == [t[0]] + t[1..];
      r
  }

  lemma {:induction false} InsertSorted(o: Order, k: SortKey, x: Expense, t: seq<Expense>)
    requires Sorted(o, k, t)
    ensures Sorted(o, k, Insert(o, k, x, t))
    decreases |t|
  {
    if t == [] {
    } else if Cmp(o, k, x, t[0]) < 0 {
      forall y | y in t ensures Cmp(o, k, x, y) <= 0 {
        HeadFirst(o, k, t, y);
        CmpStrictTransitive(o, k, x, t[0], y);
      }
      SortedCons(o, k, x, t);
    } else {
      SortedTail(o, k, t);
      InsertSorted(o, k, x, t[1..]);
      InsertBehindHead(o, k, x, t);
      var rest := Insert(o, k, x, t[1..]);
      CmpAntisymmetric(o, k, x, t[0]);
      forall y | y in rest ensures Cmp(o, k, t[0], y) <= 0 {
        if y != x {
          assert y in t;
          HeadFirst(o, k, t, y);
        }
      }
      SortedCons(o, k, t[0], rest);
    }
  }

  /** The head of a sorted list sorts no later than any of its elements. */
  lemma HeadFirst(o: Order, k: SortKey, t: seq<Expense>, y: Expense)
    requires Sorted(o, k, t) && y in t
    ensures Cmp(o, k, t[0], y) <= 0
  {
    var j :| 0 <= j < |t| && t[j] == y;
    if j == 0 {
      CmpAntisymmetric(o, k, y, y);
    }
  }

  /** A head that sorts no later than any element of a sorted list keeps it sorted. */
  lemma SortedCons(o: Order, k: SortKey, h: Expense, s: seq<Expense>)
    requires Sorted(o, k, s)
    requires forall y :: y in s ==> Cmp(o, k, h, y) <= 0
    ensures Sorted(o, k, [h] + s)
  {
    var r := [h] + s;
    forall i, j | 0 <= i < j < |r| ensures Cmp(o, k, r[i], r[j]) <= 0 {
      assert r[j] == s[j - 1];
      if i > 0 {
        assert r[i] == s[i - 1];
      } else {
        assert s[j - 1] in s;
      }
    }
  }

  /** `sortExpenses(expenses, sortBy, order)`: a sorted permutation of the records. */
  function SortExpenses(s: seq<Expense>, k: SortKey, o: Order): (r: seq<Expense>)
    ensures multiset(r) == multiset(s)
    ensures |r| == |s|
    ensures Sorted(o, k, r)
    decreases |s|
  {
    if s == [] then []
    else
      var init := s[..|s| - 1];
      var x := s[|s| - 1];
      assert s == init + [x];
      var t := SortExpenses(init, k, o);
      InsertSorted(o, k, x, t);
      Insert(o, k, x, t)
  }

  /** The records that tie with `z` under key `k`, in either direction. */
  function TiesWith(k: SortKey, z: Expense): Expense -> bool {
    (e: Expense) => Comparison(k, e, z) == 0
  }

  /** Two records that tie with a third tie with each other. */
  lemma TiesAreEquivalent(o: Order, k: SortKey, a: Expense, b: Expense, z: Expense)
    requires TiesWith(k, z)(a) && TiesWith(k, z)(b)
    ensures Cmp(o, k, a, b) == 0
  {
    CmpAntisymmetric(o, k, b, z);
    CmpAntisymmetric(o, k, a, z);
    CmpTransitive(o, k, a, z, b);
    CmpTransitive(o, k, b, z, a);
    CmpAntisymmetric(o, k, a, b);
  }

  /** Inserting into a sorted list keeps `x` after everything it ties with. */
  lemma {:induction false} InsertStable(o: Order, k: SortKey, x: Expense, t: seq<Expense>, z: Expense)
    requires Sorted(o, k, t)
    ensures Filter(Insert(o, k, x, t), TiesWith(k, z)) == Filter(t, TiesWith(k, z)) + Filter([x], TiesWith(k, z))
    decreases |t|
  {
    if t == [] {
      assert Insert(o, k, x, t) == [x];
      assert Filter(t, TiesWith(k, z)) == [];
    } else if Cmp(o, k, x, t[0]) < 0 {
      InsertInFront(o, k, x, t, z);
    } else {
      SortedTail(o, k, t);
      InsertStable(o, k, x, t[1..], z);
      InsertBehind(o, k, x, t, z);
    }
  }

  /** The case of `InsertStable` where `x` goes in front. */
  lemma InsertInFront(o: Order, k: SortKey, x: Expense, t: seq<Expense>, z: Expense)
    requires Sorted(o, k, t) && t != [] && Cmp(o, k, x, t[0]) < 0
    ensures Filter(Insert(o, k, x, t), TiesWith(k, z)) == Filter(t, TiesWith(k, z)) + Filter([x], TiesWith(k, z))
  {
    var p := TiesWith(k, z);
    assert Insert(o, k, x, t) == [x] + t;
    FilterAppend([x], t, p);
    if p(x) {
      NoTiesAfter(o, k, x, t, z);
      assert Filter(t, p) + Filter([x], p) == Filter([x], p) + [];
    } else {
      FilterOfOne(x, p);
      assert Filter(t, p) + Filter([x], p) == [] + Filter(t, p);
    }
  }

  /** The case of `InsertStable` where `x` goes behind the head, given the claim for
      the tail. */
  lemma InsertBehind(o: Order, k: SortKey, x: Expense, t: seq<Expense>, z: Expense)
    requires t != [] && Cmp(o, k, x, t[0]) >= 0
    requires Filter(Insert(o, k, x, t[1..]), TiesWith(k, z)) == Filter(t[1..], TiesWith(k, z)) + Filter([x], TiesWith(k, z))
    ensures Filter(Insert(o, k, x, t), TiesWith(k, z)) == Filter(t, TiesWith(k, z)) + Filter([x], TiesWith(k, z))
  {
    var p := TiesWith(k, z);
    InsertBehindHead(o, k, x, t);
    FilterBehindHead(t[0], Insert(o, k, x, t[1..]), t[1..], Filter([x], p), p);
    assert [t[0]] + t[1..] == t;
  }

  /** When `x` does not sort strictly before the head, the head stays in front. */
  lemma InsertBehindHead(o: Order, k: SortKey, x: Expense, t: seq<Expense>)
    requires t != [] && Cmp(o, k, x, t[0]) >= 0
    ensures Insert(o, k, x, t) == [t[0]] + Insert(o, k, x, t[1..])
  {
  }

  lemma SortedTail(o: Order, k: SortKey, t: seq<Expense>)
    requires t != [] && Sorted(o, k, t)
    ensures Sorted(o, k, t[1..])
  {
    forall i, j | 0 <= i < j < |t| - 1 ensures Cmp(o, k, t[1..][i], t[1..][j]) <= 0 {
      assert t[1..][i] == t[i + 1] && t[1..][j] == t[j + 1];
    }
  }

  /** Filtering a single element keeps it exactly when it satisfies the predicate. */
  lemma FilterOfOne(x: Expense, p: Expense -> bool)
    ensures Filter([x], p) == if p(x) then [x] else []
  {
    assert [x][1..] == [];
  }

  /** Nothing in a sorted list that sorts strictly after `x` ties with `x`'s tie
      class. */
  lemma NoTiesAfter(o: Order, k: SortKey, x: Expense, t: seq<Expense>, z: Expense)
    requires Sorted(o, k, t) && t != [] && Cmp(o, k, x, t[0]) < 0
    requires TiesWith(k, z)(x)
    ensures Filter(t, TiesWith(k, z)) == []
  {
    var p := TiesWith(k, z);
    forall y | y in t ensures !p(y) {
      var j :| 0 <= j < |t| && t[j] == y;
      if j == 0 {
        CmpAntisymmetric(o, k, y, y);
      }
      CmpStrictTransitive(o, k, x, t[0], y);
      assert Cmp(o, k, x, y) < 0;
      TiesNotStrict(o, k, x, y, z);
    }
    FilterKeepsNone(t, p);
  }

  /** A record strictly before another is not in the same tie class. */
  lemma TiesNotStrict(o: Order, k: SortKey, x: Expense, y: Expense, z: Expense)
    requires TiesWith(k, z)(x) && Cmp(o, k, x, y) < 0
    ensures !TiesWith(k, z)(y)
  {
    if TiesWith(k, z)(y) {
      TiesAreEquivalent(o, k, x, y, z);
      assert false;
    }
  }

  /** Stability: the records that tie with any given record appear in the result in
      the order they had in the input, ascending and descending alike. */
  lemma {:induction false} SortStable(s: seq<Expense>, k: SortKey, o: Order, z: Expense)
    ensures Filter(SortExpenses(s, k, o), TiesWith(k, z)) == Filter(s, TiesWith(k, z))
    decreases |s|
  {
    if s != [] {
      var init := s[..|s| - 1];
      var x := s[|s| - 1];
      assert s == init + [x];
      SortStable(init, k, o, z);
      InsertStable(o, k, x, SortExpenses(init, k, o), z);
      FilterAppend(init, [x], TiesWith(k, z));
    }
  }

  /** An unknown sort key leaves the order of the records unchanged. */
  lemma SortByOtherKeepsOrder(s: seq<Expense>, o: Order, z: Expense)
    ensures SortExpenses(s, ByOther, o) == s
  {
    SortStable(s, ByOther, o, z);
    FilterKeepsAll(s, TiesWith(ByOther, z));
    FilterKeepsAll(SortExpenses(s, ByOther, o), TiesWith(ByOther, z));
  }

  /** Two records on the same day keep their input order whichever direction is
      asked for, so the descending sort is not the reverse of the ascending one. */
  lemma DescendingIsNotReversedAscending()
    ensures var a := Expense("a", 10, "food", "lunch", Date(2024, 0, 5), "t1");
            var b := Expense("b", 20, "food", "dinner", Date(2024, 0, 5), "t2");
            && SortExpenses([a, b], ByDate, Asc) == [a, b]
            && SortExpenses([a, b], ByDate, Desc) == [a, b]
  {
    var a := Expense("a", 10, "food", "lunch", Date(2024, 0, 5), "t1");
    var b := Expense("b", 20, "food", "dinner", Date(2024, 0, 5), "t2");
    assert [a, b][..1] == [a];
    assert [a][..0] == [];
  }
}

=== FILE: text.dfy ===
/** The string operations the application relies on: `trim`, `toLowerCase`,
    `includes`, number-to-string conversion, `padStart`, and `join` / `split`
    on a one-character separator. */
module Text {

  /** Characters JavaScript's `trim` removes: the ECMAScript WhiteSpace set (tab,
      vertical tab, form feed, space, no-break space, the byte-order mark and
      every other space separator of Unicode category Zs) and the line
      terminators (line feed, carriage return, U+2028, U+2029). */
  predicate IsWhitespace(c: char) {
    || c == '\t' || c == '\U{000B}' || c == '\U{000C}' || c == ' ' || c == '\U{00A0}' || c == '\U{FEFF}'
    || c == '\U{1680}' || ('\U{2000}' <= c <= '\U{200A}') || c == '\U{202F}' || c == '\U{205F}' || c == '\U{3000}'
    || c == '\n' || c == '\r' || c == '\U{2028}' || c == '\U{2029}'
  }

  /** `needle` occurs in `hay` starting at position `i`. */
  predicate OccursAt(hay: string, needle: string, i: int) {
    0 <= i <= |hay| - |needle| && hay[i..i + |needle|] == needle
  }

  /** Every character is whitespace: what `s.trim()` being empty means. */
  predicate IsBlank(s: string) {
    forall i :: 0 <= i < |s| ==> IsWhitespace(s[i])
  }

  /** Number of whitespace characters `s` starts with. */
  function LeadingBlanks(s: string): (n: nat)
    ensures n <= |s|
    ensures IsBlank(s[..n])
    ensures n == |s| || !IsWhitespace(s[n])
  {
    if s == [] || !IsWhitespace(s[0]) then 0
    else
      var n := 1 + LeadingBlanks(s[1..]);
      assert forall k :: 1 <= k < n ==> s[..n][k] == s[1..][..n - 1][k - 1];
      n
  }

  /** Number of whitespace characters `s` ends with. */
  function TrailingBlanks(s: string): (n: nat)
    ensures n <= |s|
    ensures IsBlank(s[|s| - n..])
    ensures n == |s| || !IsWhitespace(s[|s| - n - 1])
  {
    if s == [] || !IsWhitespace(s[|s| - 1]) then 0
    else
      var init := s[..|s| - 1];
      var n := 1 + TrailingBlanks(init);
      assert s[|s| - n..] == init[|init| - (n - 1)..] + [s[|s| - 1]];
      n
  }

  /** `s.trim()`: the piece of `s` between its leading and trailing whitespace. It
      neither starts nor ends with whitespace, and is empty exactly when `s` is blank. */
  function Trim(s: string): (r: string)
    ensures exists i :: OccursAt(s, r, i)
    ensures r == [] || (!IsWhitespace(r[0]) && !IsWhitespace(r[|r| - 1]))
    ensures r == [] <==> IsBlank(s)
  {
    var a := LeadingBlanks(s);
    if a == |s| then
      assert s[..a] == s;
      assert OccursAt(s, [], 0);
      []
    else
      var b := TrailingBlanks(s);
      assert !IsBlank(s) by { assert !IsWhitespace(s[a]); }
      assert a < |s| - b;
      var r := s[a..|s| - b];
      assert OccursAt(s, r, a);
      r
  }

  /** ASCII lower-casing of one character. */
  function LowerChar(c: char): char {
    if 'A' <= c <= 'Z' then (c as int + 32) as char else c
  }

  /** `s.toLowerCase()` restricted to ASCII letters. */
  function Lower(s: string): (r: string)
    ensures |r| == |s|
    ensures forall i :: 0 <= i < |s| ==> r[i] == LowerChar(s[i])
  {
    seq(|s|, i requires 0 <= i < |s| => LowerChar(s[i]))
  }

  /** `hay.includes(needle)`: `needle` occurs in `hay` at some position. */
  function Contains(hay: string, needle: string): (r: bool)
    ensures r <==> exists i :: OccursAt(hay, needle, i)
    decreases |hay|
  {
    if needle <= hay then
      assert OccursAt(hay, needle, 0);
      true
    else if hay == [] then
      false
    else
      var r := Contains(hay[1..], needle);
      assert forall i :: OccursAt(hay[1..], needle, i) ==> OccursAt(hay, needle, i + 1) by {
        forall i | OccursAt(hay[1..], needle, i) ensures OccursAt(hay, needle, i + 1) {
          assert hay[i + 1..i + 1 + |needle|] == hay[1..][i..i + |needle|];
        }
      }
      assert forall i :: OccursAt(hay, needle, i) ==> OccursAt(hay[1..], needle, i - 1) by {
        forall i | OccursAt(hay, needle, i) ensures OccursAt(hay[1..], needle, i - 1) {
          if i > 0 {
            assert hay[1..][i - 1..i - 1 + |needle|] == hay[i..i + |needle|];
          }
        }
      }
      r
  }

  // ---------------------------------------------------------------------------
  // Numbers

  predicate IsDigit(c: char) { '0' <= c <= '9' }

  function DigitChar(d: nat): (c: char)
    requires d < 10
    ensures IsDigit(c)
  {
    ('0' as int + d) as char
  }

  function DigitValue(c: char): nat
    requires IsDigit(c)
  {
    c as int - '0' as int
  }

  /** The number a string of decimal digits denotes. */
  function DecimalValue(s: string): nat
    requires forall i :: 0 <= i < |s| ==> IsDigit(s[i])
  {
    if s == [] then 0 else DecimalValue(s[..|s| - 1]) * 10 + DigitValue(s[|s| - 1])
  }

  /** The decimal representation of `n`, most significant digit first, no leading zeros. */
  function NatToString(n: nat): (r: string)
    ensures |r| >= 1
    ensures forall i :: 0 <= i < |r| ==> IsDigit(r[i])
    ensures |r| > 1 ==> r[0] != '0'
    ensures DecimalValue(r) == n
  {
    if n < 10 then [DigitChar(n)]
    else
      var r := NatToString(n / 10) + [DigitChar(n % 10)];
      assert r[..|r| - 1] == NatToString(n / 10);
      r
  }

  /** `String(i)` for an integer: a minus sign before the digits of a negative number. */
  function IntToString(i: int): (r: string)
    ensures |r| >= 1
    ensures forall k :: 0 <= k < |r| ==> IsDigit(r[k]) || (k == 0 && r[k] == '-')
    ensures (r[0] == '-') <==> i < 0
    ensures i >= 0 ==> DecimalValue(r) == i
    ensures i < 0 ==> DecimalValue(r[1..]) == -i
  {
    if i < 0 then "-" + NatToString(-i) else NatToString(i)
  }

  /** `s.padStart(2, '0')`. */
  function PadTwo(s: string): (r: string)
    ensures |s| >= 2 ==> r == s
    ensures |s| < 2 ==> |r| == 2 && r[2 - |s|..] == s
    ensures forall k :: 0 <= k < |r| - |s| ==> r[k] == '0'
  {
    if |s| == 0 then "00" else if |s| == 1 then "0" + s else s
  }

  /** A number below 100, padded to two characters, is two digits that read back
      as the number. */
  lemma PadTwoDigits(n: int)
    requires 0 <= n < 100
    ensures var r := PadTwo(IntToString(n));
            |r| == 2 && IsDigit(r[0]) && IsDigit(r[1]) && DecimalValue(r) == n
  {
    var digits := IntToString(n);
    var r := PadTwo(digits);
    if n < 10 {
      assert digits == [DigitChar(n)];
      assert r == "0" + digits;
      assert r[..1] == "0" && "0"[..0] == "";
      assert DecimalValue(digits) == DecimalValue([]) * 10 + DigitValue(digits[0]);
    } else {
      assert digits == NatToString(n / 10) + [DigitChar(n % 10)];
      assert NatToString(n / 10) == [DigitChar(n / 10)];
    }
  }

  // ---------------------------------------------------------------------------
  // Join and split

  /** `parts.join(sep)`. */
  function Join(parts: seq<string>, sep: char): string {
    if parts == [] then ""
    else if |parts| == 1 then parts[0]
    else parts[0] + [sep] + Join(parts[1..], sep)
  }

  /** `s.split(sep)`: the pieces between separators; always at least one piece. */
  function Split(s: string, sep: char): (r: seq<string>)
    ensures |r| >= 1
    ensures forall k :: 0 <= k < |r| ==> sep !in r[k]
  {
    if s == [] then [""]
    else
      var rest := Split(s[1..], sep);
      if s[0] == sep then [""] + rest else [[s[0]] + rest[0]] + rest[1..]
  }

  lemma {:induction false} SplitWithoutSep(s: string, sep: char)
    requires sep !in s
    ensures Split(s, sep) == [s]
    decreases |s|
  {
    if s != [] {
      SplitWithoutSep(s[1..], sep);
      assert [s[0]] + s[1..] == s;
    }
  }

  /** Splitting at the first separator. */
  lemma {:induction false} SplitAtFirst(a: string, b: string, sep: char)
    requires sep !in a
    ensures Split(a + [sep] + b, sep) == [a] + Split(b, sep)
    decreases |a|
  {
    var s := a + [sep] + b;
    if a == [] {
      assert s == [sep] + b;
      assert s[1..] == b;
    } else {
      assert s[1..] == a[1..] + [sep] + b;
      SplitAtFirst(a[1..], b, sep);
      assert [a[0]] + a[1..] == a;
    }
  }

  /** A join contains a character other than the separator only if a part does. */
  lemma {:induction false} JoinWithout(parts: seq<string>, sep: char, c: char)
    requires c != sep
    requires forall k :: 0 <= k < |parts| ==> c !in parts[k]
    ensures c !in Join(parts, sep)
    decreases |parts|
  {
    if |parts| > 1 {
      JoinWithout(parts[1..], sep, c);
    }
  }

  /** Splitting a join gives back the parts, as long as no part contains the separator. */
  lemma {:induction false} SplitJoin(parts: seq<string>, sep: char)
    requires |parts| >= 1
    requires forall k :: 0 <= k < |parts| ==> sep !in parts[k]
    ensures Split(Join(parts, sep), sep) == parts
    decreases |parts|
  {
    if |parts| == 1 {
      SplitWithoutSep(parts[0], sep);
    } else {
      SplitJoin(parts[1..], sep);
      SplitAtFirst(parts[0], Join(parts[1..], sep), sep);
      assert [parts[0]] + parts[1..] == parts;
    }
  }
}

=== FILE: yearly.dfy ===
/** The statistics of the yearly analysis view (src/components/YearlyAnalysis.jsx):
    the year's total and monthly average, the highest and lowest months, the
    colour of each month's bar and each month's share of the year. */
module Yearly {
  import opened Seqs
  import opened Model
  import opened Query

  /** A month picked as highest or lowest, or the `{ total: 0, name: '-' }`
      placeholder shown when no month has data. */
  datatype MonthPick = NoMonth | Picked(bucket: MonthlyBucket) {
    function Total(): int {
      match this
      case NoMonth => 0
      case Picked(b) => b.total
    }
    function Name(): string {
      match this
      case NoMonth => "-"
      case Picked(b) => b.name
    }
  }

  function HasData(): MonthlyBucket -> bool {
    (b: MonthlyBucket) => b.total > 0
  }

  /** `monthsWithData`: the buckets with a positive total, in month order. */
  function MonthsWithData(bs: seq<MonthlyBucket>): (r: seq<MonthlyBucket>)
    ensures forall b :: b in r <==> b in bs && b.total > 0
    ensures forall b :: multiset(r)[b] == if b.total > 0 then multiset(bs)[b] else 0
    ensures IsSubseq(r, bs)
  {
    FilterMultiset(bs, HasData());
    FilterIsSubseq(bs, HasData());
    Filter(bs, HasData())
  }

  /** `ms[i]` has the largest total, and every earlier bucket a strictly smaller one. */
  predicate FirstMaxAt(ms: seq<MonthlyBucket>, i: int) {
    && 0 <= i < |ms|
    && (forall j :: 0 <= j < |ms| ==> ms[j].total <= ms[i].total)
    && (forall j :: 0 <= j < i ==> ms[j].total < ms[i].total)
  }

  /** `ms[i]` has the smallest total, and every earlier bucket a strictly larger one. */
  predicate FirstMinAt(ms: seq<MonthlyBucket>, i: int) {
    && 0 <= i < |ms|
    && (forall j :: 0 <= j < |ms| ==> ms[j].total >= ms[i].total)
    && (forall j :: 0 <= j < i ==> ms[j].total > ms[i].total)
  }

  /** The reduce behind `highestMonth`: a month replaces the running pick only
      when its total is strictly larger. */
  function FoldMax(acc: MonthPick, ms: seq<MonthlyBucket>): MonthPick
    decreases |ms|
  {
    if ms == [] then acc
    else FoldMax(if ms[0].total > acc.Total() then Picked(ms[0]) else acc, ms[1..])
  }

  /** The reduce behind `lowestMonth`: a month replaces the running pick only
      when its total is strictly smaller. */
  function FoldMin(acc: MonthlyBucket, ms: seq<MonthlyBucket>): MonthlyBucket
    decreases |ms|
  {
    if ms == [] then acc
    else FoldMin(if ms[0].total < acc.total then ms[0] else acc, ms[1..])
  }

  /** The max-fold keeps its start value when no month beats it. */
  lemma {:induction false} FoldMaxKeeps(acc: MonthPick, ms: seq<MonthlyBucket>)
    requires forall j :: 0 <= j < |ms| ==> ms[j].total <= acc.Total()
    ensures FoldMax(acc, ms) == acc
    decreases |ms|
  {
    if ms != [] {
      FoldMaxKeeps(acc, ms[1..]);
    }
  }

  /** When some month beats the start value, the max-fold ends on the first month
      with the largest total. */
  lemma {:induction false} FoldMaxPicksFirstMax(acc: MonthPick, ms: seq<MonthlyBucket>, w: nat)
    requires w < |ms| && ms[w].total > acc.Total()
    ensures exists i :: FirstMaxAt(ms, i) && FoldMax(acc, ms) == Picked(ms[i])
    decreases |ms|
  {
    var rest := ms[1..];
    if ms[0].total > acc.Total() {
      var next := Picked(ms[0]);
      if forall j :: 0 <= j < |rest| ==> rest[j].total <= next.Total() {
        FoldMaxKeeps(next, rest);
        assert FirstMaxAt(ms, 0);
      } else {
        var v :| 0 <= v < |rest| && rest[v].total > next.Total();
        FoldMaxPicksFirstMax(next, rest, v);
        var i :| FirstMaxAt(rest, i) && FoldMax(next, rest) == Picked(rest[i]);
        ShiftFirstMax(ms, i, v);
      }
    } else {
      FoldMaxPicksFirstMax(acc, rest, w - 1);
      var i :| FirstMaxAt(rest, i) && FoldMax(acc, rest) == Picked(rest[i]);
      ShiftFirstMax(ms, i, w - 1);
    }
  }

  /** A first largest total of the tail that beats the head is the first largest of
      the whole. */
  lemma ShiftFirstMax(ms: seq<MonthlyBucket>, i: int, v: int)
    requires |ms| > 0 && FirstMaxAt(ms[1..], i)
    requires 0 <= v < |ms| - 1 && ms[1..][v].total > ms[0].total
    ensures FirstMaxAt(ms, i + 1)
  {
    assert ms[1..][i].total >= ms[1..][v].total;
    forall j | 1 <= j < |ms| ensures ms[j].total == ms[1..][j - 1].total {
    }
  }

  /** The min-fold keeps its start value when no month undercuts it. */
  lemma {:induction false} FoldMinKeeps(acc: MonthlyBucket, ms: seq<MonthlyBucket>)
    requires forall j :: 0 <= j < |ms| ==> ms[j].total >= acc.total
    ensures FoldMin(acc, ms) == acc
    decreases |ms|
  {
    if ms != [] {
      FoldMinKeeps(acc, ms[1..]);
    }
  }

  /** When some month undercuts the start value, the min-fold ends on the first
      month with the smallest total. */
  lemma {:induction false} FoldMinPicksFirstMin(acc: MonthlyBucket, ms: seq<MonthlyBucket>, w: nat)
    requires w < |ms| && ms[w].total < acc.total
    ensures exists i :: FirstMinAt(ms, i) && FoldMin(acc, ms) == ms[i]
    decreases |ms|
  {
    var rest := ms[1..];
    if ms[0].total < acc.total {
      if forall j :: 0 <= j < |rest| ==> rest[j].total >= ms[0].total {
        FoldMinKeeps(ms[0], rest);
        assert FirstMinAt(ms, 0);
      } else {
        var v :| 0 <= v < |rest| && rest[v].total < ms[0].total;
        FoldMinPicksFirstMin(ms[0], rest, v);
        var i :| FirstMinAt(rest, i) && FoldMin(ms[0], rest) == rest[i];
        ShiftFirstMin(ms, i, v);
      }
    } else {
      FoldMinPicksFirstMin(acc, rest, w - 1);
      var i :| FirstMinAt(rest, i) && FoldMin(acc, rest) == rest[i];
      ShiftFirstMin(ms, i, w - 1);
    }
  }

  /** A first smallest total of the tail that undercuts the head is the first
      smallest of the whole. */
  lemma ShiftFirstMin(ms: seq<MonthlyBucket>, i: int, v: int)
    requires |ms| > 0 && FirstMinAt(ms[1..], i)
    requires 0 <= v < |ms| - 1 && ms[1..][v].total < ms[0].total
    ensures FirstMinAt(ms, i + 1)
  {
    assert ms[1..][i].total <= ms[1..][v].total;
    forall j | 1 <= j < |ms| ensures ms[j].total == ms[1..][j - 1].total {
    }
  }

  /** Reference definition: the position of the first largest total, found by a
      scan from the right end. */
  function FirstMaxIndex(ms: seq<MonthlyBucket>): (i: nat)
    requires |ms| > 0
    ensures FirstMaxAt(ms, i)
    decreases |ms|
  {
    if |ms| == 1 then 0
    else
      var init := ms[..|ms| - 1];
      var i := FirstMaxIndex(init);
      assert forall j :: 0 <= j < |init| ==> init[j] == ms[j];
      if ms[|ms| - 1].total > ms[i].total then |ms| - 1 else i
  }

  /** Reference definition: the position of the first smallest total. */
  function FirstMinIndex(ms: seq<MonthlyBucket>): (i: nat)
    requires |ms| > 0
    ensures FirstMinAt(ms, i)
    decreases |ms|
  {
    if |ms| == 1 then 0
    else
      var init := ms[..|ms| - 1];
      var i := FirstMinIndex(init);
      assert forall j :: 0 <= j < |init| ==> init[j] == ms[j];
      if ms[|ms| - 1].total < ms[i].total then |ms| - 1 else i
  }

  /** Only one position can be the first largest (or the first smallest). */
  lemma FirstExtremeUnique(ms: seq<MonthlyBucket>, i: int, k: int)
    ensures FirstMaxAt(ms, i) && FirstMaxAt(ms, k) ==> i == k
    ensures FirstMinAt(ms, i) && FirstMinAt(ms, k) ==> i == k
  {
    if FirstMaxAt(ms, i) && FirstMaxAt(ms, k) {
      assert ms[i].total == ms[k].total;
    }
    if FirstMinAt(ms, i) && FirstMinAt(ms, k) {
      assert ms[i].total == ms[k].total;
    }
  }

  /** Folding from the placeholder over months with positive totals ends on the
      first largest one. */
  lemma HighestFold(ms: seq<MonthlyBucket>)
    requires |ms| > 0 && ms[0].total > 0
    ensures FoldMax(NoMonth, ms) == Picked(ms[FirstMaxIndex(ms)])
  {
    FoldMaxPicksFirstMax(NoMonth, ms, 0);
    var i :| FirstMaxAt(ms, i) && FoldMax(NoMonth, ms) == Picked(ms[i]);
    FirstExtremeUnique(ms, i, FirstMaxIndex(ms));
  }

  /** A reduce without a start value starts from the first month and ends on the
      first smallest one. */
  lemma LowestFold(ms: seq<MonthlyBucket>)
    requires |ms| > 0
    ensures FoldMin(ms[0], ms[1..]) == ms[FirstMinIndex(ms)]
  {
    var rest := ms[1..];
    var m := FirstMinIndex(ms);
    if forall j :: 0 <= j < |rest| ==> rest[j].total >= ms[0].total {
      FoldMinKeeps(ms[0], rest);
      assert FirstMinAt(ms, 0);
      FirstExtremeUnique(ms, 0, m);
    } else {
      var v :| 0 <= v < |rest| && rest[v].total < ms[0].total;
      FoldMinPicksFirstMin(ms[0], rest, v);
      var i :| FirstMinAt(rest, i) && FoldMin(ms[0], rest) == rest[i];
      ShiftFirstMin(ms, i, v);
      FirstExtremeUnique(ms, i + 1, m);
    }
  }

  /** `highestMonth`: the placeholder when no month has data, otherwise the first
      month with data whose total is the largest. */
  function HighestMonth(bs: seq<MonthlyBucket>): (r: MonthPick)
    ensures MonthsWithData(bs) == [] ==> r == NoMonth
    ensures MonthsWithData(bs) != [] ==>
              r == Picked(MonthsWithData(bs)[FirstMaxIndex(MonthsWithData(bs))])
  {
    var ms := MonthsWithData(bs);
    if ms == [] then NoMonth
    else
      assert ms[0] in ms;
      HighestFold(ms);
      FoldMax(NoMonth, ms)
  }

  /** `lowestMonth`: the placeholder when no month has data, otherwise the first
      month with data whose total is the smallest. */
  function LowestMonth(bs: seq<MonthlyBucket>): (r: MonthPick)
    ensures MonthsWithData(bs) == [] ==> r == NoMonth
    ensures MonthsWithData(bs) != [] ==>
              r == Picked(MonthsWithData(bs)[FirstMinIndex(MonthsWithData(bs))])
  {
    var ms := MonthsWithData(bs);
    if |ms| > 0 then
      LowestFold(ms);
      Picked(FoldMin(ms[0], ms[1..]))
    else NoMonth
  }

  /** Every month with data lies between the lowest and the highest month, and
      the lowest month's total is positive. */
  lemma ExtremesBoundEveryMonth(bs: seq<MonthlyBucket>)
    requires MonthsWithData(bs) != []
    ensures forall j :: 0 <= j < |bs| && bs[j].total > 0 ==>
              0 < LowestMonth(bs).Total() <= bs[j].total <= HighestMonth(bs).Total()
  {
    var ms := MonthsWithData(bs);
    var hi, lo := FirstMaxIndex(ms), FirstMinIndex(ms);
    var high, low := ms[hi].total, ms[lo].total;
    assert HighestMonth(bs).Total() == high && LowestMonth(bs).Total() == low;
    assert low > 0 by { assert ms[lo] in ms; }
    forall j | 0 <= j < |bs| && bs[j].total > 0 ensures low <= bs[j].total <= high {
      assert bs[j] in ms;
      var k :| 0 <= k < |ms| && ms[k] == bs[j];
      assert low <= ms[k].total <= high;
    }
  }

  /** With exactly one month of data, that month is both the highest and the lowest. */
  lemma SingleMonthIsBothExtremes(bs: seq<MonthlyBucket>)
    requires |MonthsWithData(bs)| == 1
    ensures HighestMonth(bs) == LowestMonth(bs) == Picked(MonthsWithData(bs)[0])
  {
  }

  // ---------------------------------------------------------------------------
  // Bar colours

  datatype BarColour = HighestColour | LowestColour | NormalColour

  /** The colour of one month's bar: the highest test is made first, then the lowest. */
  function Colour(m: MonthlyBucket, hi: MonthPick, lo: MonthPick): BarColour {
    if m.total == hi.Total() then HighestColour
    else if m.total == lo.Total() then LowestColour
    else NormalColour
  }

  function BarColours(bs: seq<MonthlyBucket>): (r: seq<BarColour>)
    ensures |r| == |bs|
    ensures forall j :: 0 <= j < |bs| ==> r[j] == Colour(bs[j], HighestMonth(bs), LowestMonth(bs))
  {
    var hi := HighestMonth(bs);
    var lo := LowestMonth(bs);
    seq(|bs|, j requires 0 <= j < |bs| => Colour(bs[j], hi, lo))
  }

  /** In a year without data every zero-total month gets the highest colour,
      because the placeholder's total is zero. */
  lemma EmptyYearAllHighest(bs: seq<MonthlyBucket>)
    requires forall j :: 0 <= j < |bs| ==> bs[j].total == 0
    ensures forall j :: 0 <= j < |bs| ==> BarColours(bs)[j] == HighestColour
  {
    assert MonthsWithData(bs) == [] by {
      FilterKeepsNone(bs, HasData());
    }
  }

  /** In a year with data: a month gets the highest colour iff it ties the highest
      month, the lowest colour iff it ties the lowest month but not the highest,
      and a month without data is never highlighted. */
  lemma ColoursInYearWithData(bs: seq<MonthlyBucket>)
    requires MonthsWithData(bs) != []
    ensures forall j :: 0 <= j < |bs| && bs[j].total <= 0 ==> BarColours(bs)[j] == NormalColour
    ensures forall j :: 0 <= j < |bs| ==>
              (BarColours(bs)[j] == HighestColour <==> bs[j].total == HighestMonth(bs).Total())
    ensures forall j :: 0 <= j < |bs| ==>
              (BarColours(bs)[j] == LowestColour <==>
                 bs[j].total != HighestMonth(bs).Total() && bs[j].total == LowestMonth(bs).Total())
  {
    var ms := MonthsWithData(bs);
    assert ms[0] in ms;
    ExtremesBoundEveryMonth(bs);
  }

  // ---------------------------------------------------------------------------
  // Year total, average and shares

  /** The year's total: the sum of the amounts dated in the year. With
      non-negative amounts it lies between 0 and the total of every record. */
  function YearTotal(es: seq<Expense>, y: int): (r: int)
    ensures NonNegativeAmounts(es) ==> 0 <= r <= Total(es)
  {
    if NonNegativeAmounts(es) then SumFilterBound(es, InYear(y), AmountOf); Total(YearExpenses(es, y))
    else Total(YearExpenses(es, y))
  }

  /** `avgMonthly`: the year's total over twelve months, whatever the number of
      months with data. */
  function AvgMonthly(es: seq<Expense>, y: int): (r: real)
    ensures r * 12.0 == YearTotal(es, y) as real
  {
    YearTotal(es, y) as real / 12.0
  }

  /** The average is the mean of the twelve monthly totals. */
  lemma AvgIsMeanOfBuckets(es: seq<Expense>, y: int)
    ensures AvgMonthly(es, y) == Sum(MonthlyTotals(es, y), BucketTotal) as real / 12.0
  {
    MonthlyTotalsConserve(es, y);
  }

  /** The "% of Year" of a month: its share of the year's total, or 0 when the
      year's total is not positive. */
  function Share(total: int, yearTotal: int): (r: real)
    ensures yearTotal > 0 ==> r * yearTotal as real == total as real * 100.0
    ensures yearTotal <= 0 ==> r == 0.0
  {
    if yearTotal > 0 then total as real / yearTotal as real * 100.0 else 0.0
  }

  /** A month whose total lies between 0 and the year's total has a share between 0 and 100. */
  lemma ShareWithinBounds(total: int, yearTotal: int)
    requires 0 <= total <= yearTotal
    ensures 0.0 <= Share(total, yearTotal) <= 100.0
  {
    if yearTotal > 0 {
      assert Share(total, yearTotal) * yearTotal as real <= 100.0 * yearTotal as real;
    }
  }

  /** The sum of the months' shares. */
  function SumShares(bs: seq<MonthlyBucket>, yearTotal: int): real {
    if bs == [] then 0.0 else Share(bs[0].total, yearTotal) + SumShares(bs[1..], yearTotal)
  }

  lemma {:induction false} SumSharesScales(bs: seq<MonthlyBucket>, yearTotal: int)
    requires yearTotal > 0
    ensures SumShares(bs, yearTotal) * yearTotal as real == Sum(bs, BucketTotal) as real * 100.0
    decreases |bs|
  {
    if bs != [] {
      SumSharesScales(bs[1..], yearTotal);
      var s := Share(bs[0].total, yearTotal);
      var t := SumShares(bs[1..], yearTotal);
      assert (s + t) * yearTotal as real == s * yearTotal as real + t * yearTotal as real;
    }
  }

  lemma CancelPositive(a: real, b: real, t: real)
    requires t > 0.0 && a * t == b * t
    ensures a == b
  {
    assert (a - b) * t == 0.0;
  }

  /** Shares of months whose totals make up the whole add up to 100. */
  lemma SharesOfWholeSumToHundred(bs: seq<MonthlyBucket>, yearTotal: int)
    requires yearTotal > 0 && Sum(bs, BucketTotal) == yearTotal
    ensures SumShares(bs, yearTotal) == 100.0
  {
    SumSharesScales(bs, yearTotal);
    CancelPositive(SumShares(bs, yearTotal), 100.0, yearTotal as real);
  }

  /** The twelve shares of a year with a positive total add up to 100. */
  lemma SharesSumToHundred(es: seq<Expense>, y: int)
    requires YearTotal(es, y) > 0
    ensures SumShares(MonthlyTotals(es, y), YearTotal(es, y)) == 100.0
  {
    MonthlyTotalsConserve(es, y);
    SharesOfWholeSumToHundred(MonthlyTotals(es, y), YearTotal(es, y));
  }

  /** With non-negative amounts every month's share lies between 0 and 100. */
  lemma MonthShareWithinBounds(es: seq<Expense>, y: int, m: MonthIndex)
    requires NonNegativeAmounts(es)
    ensures 0.0 <= Share(MonthlyTotals(es, y)[m].total, YearTotal(es, y)) <= 100.0
  {
    BucketWithinYear(es, y, m);
    ShareWithinBounds(MonthlyTotals(es, y)[m].total, YearTotal(es, y));
  }
}
